=== FILE: README.md ===
# cosmosdb-query helpers in Dafny

A model of the value-semantics, ordering and pagination core of the
in-memory Cosmos DB SQL engine `cosmosdb-query`. The model covers all of
`src/helpers.ts`:

- the seven-kind type taxonomy of query values (`typeOf`, `equalTypes`);
- JavaScript `===` and `<` on those values;
- the engine's `deepEqual` and the ORDER BY `comparator`;
- path lookup (`getValue`) and output sanitisation (`stripUndefined`);
- the three-valued operators: `equal`, `notEqual`, `compare`, `and`, `or`, `not`, `calculate`, `calculateUnary`, `concat` and `exists`;
- `sort`, with composite-index validation and the single-key filter;
- `paginate`, which resumes a sorted scan from a continuation token, truncates the scan to the page size and builds the next token, including the same-identifier skip count `SRC`.

Files and modules:

- `wrappers.dfy` (`Wrappers`) holds `Option`, `Result` and the engine's error conditions. A thrown `TypeError` or `Error` becomes a `Failure`.
- `values.dfy` (`Values`) holds the value datatype, `typeOf`, `===`, `<`, `deepEqual`, `comparator`, `getValue` and `stripUndefined`.
- `operators.dfy` (`Operators`) holds the operators, stated against Kleene's three-valued logic (`Tri`) and JavaScript's 32-bit integer conversions.
- `ordering.dfy` (`Ordering`) holds the row order of `sort`, the composite-index check, and `sort` as a stable insertion sort.
- `pagination.dfy` (`Pagination`) holds `paginate`, the `findIndex` resume scan, the `SRC` back-scan, the full-scan property, and a corrected `SRC` (see Findings).

The main results:

- **Comparator order.** `comparator` is a total preorder on everything but arrays. `deepEqual` is reflexive but not symmetric.
- **Three-valued operators.** `and`, `or`, `not` and `notEqual` agree with Kleene's logic on the truth values their operands stand for. `equal`, `compare`, `calculate`, `calculateUnary` and `concat` are unknown exactly when their operand guards fail.
- **`stripUndefined`.** It removes every `undefined` at every depth and is idempotent.
- **`sort`.** It returns a permutation of its input, or of the input rows whose single ORDER BY value is defined. When no ORDER BY value or identifier is an array, that permutation is sorted. It fails exactly when a declared index list serves no multi-key ORDER BY.
- **Resume.** Over a valid scan, the token `paginate` builds for a page boundary makes the next call resume exactly at that boundary. A valid scan meets four conditions: it is sorted as `sort` leaves it; every identifier is a non-empty string; no ORDER BY value is an array; and neighbouring rows that share an identifier carry the same ORDER BY values. Without the last condition, resuming can skip a row (see Findings).
- **Full scan.** Over a valid scan, feeding every continuation back gives the same rows as one unpaged call, each row once and in order.

Three behaviours of the code are easy to misread, and the model follows the code in each:

- **`SRC` scan range.** `SRC` is computed by scanning back from the row before the boundary through `collection` (`src/helpers.ts:330-335`). That is the whole sorted collection, not only the page just produced. The resume scan also counts from the start of the collection, and the two agree only because of this.
- **`SRC` names the next row.** `SRC` counts the rows before the boundary that share the identifier of the first row left over, not of the last row returned. For identifiers `[d1, d1, d2, d2]` and page size 2, the first token names `d2` with `SRC` = 0.
- **Unsupported operators.** `calculate`, `calculateUnary` and `compare` raise an error only after the operand kinds pass (`src/helpers.ts:118-138`, `src/helpers.ts:160-195`, `src/helpers.ts:199-213`). An unsupported operator on operands of the wrong kind yields `undefined`.

Inputs:

- `getRid` is a parameter of type `Value -> Value`.
- The continuation token is passed decoded, as a `Token` record.
- Rows are pairs of projected document and source binding, as `paginate` receives them.

## Model

| member | source | states |
|---|---|---|
| Values.TypeOf | src/helpers.ts:15-20 | Booleans, numbers and strings get the kinds boolean, number and string; `null` and arrays get kinds of their own, distinct from objects; `undefined` is the only value of its kind. |
| Values.EqualTypes | src/helpers.ts:22-26 | Two values have equal types exactly when both are `null`, both booleans, both numbers, both strings, both arrays or both objects. `undefined` has equal type with nothing, not even itself. |
| Values.JsLess | src/helpers.ts:55 | `<` holds only between operands of one kind, never on `null`, `undefined` or objects. |
| Values.JsLessStrict | src/helpers.ts:55 | `<` is irreflexive and asymmetric, and of two different primitives of one kind, one is less than the other. |
| Values.StrLessFirstDifference | src/helpers.ts:55 | On strings, `<` holds exactly when the left string is a proper prefix of the right one, or when, at the first position where the two differ, the left code unit is lower. |
| Values.StrictEqualsIsEquality | src/helpers.ts:44 | `===` is value equality on primitives and false on arrays and objects, which are never the same reference in the model. |
| Values.DeepEqual | src/helpers.ts:28-45 | Deep equality holds only between values of one kind, and on primitives it is exactly value equality. |
| Values.DeepEqualReflexive | src/helpers.ts:28-45 | Every value whose objects have distinct keys is deep-equal to itself. |
| Values.DeepEqualIsNotSymmetric | src/helpers.ts:37-42 | `{x: undefined, y: 1}` is deep-equal to `{y: 1, z: 2}`, but not the other way round, because only the first operand's keys are looked up and a missing key reads as `undefined`. |
| Values.Comparator | src/helpers.ts:47-65 | The result is -1, 0 or 1. It is 0 exactly on `===` operands or two objects. Across kinds it is negative exactly when the first kind comes earlier in `TYPE_ORDERS`. |
| Values.ArrayComparatorInconsistent | src/helpers.ts:47-57 | Two equal copies of an array each compare as greater than the other, so arrays are not ordered consistently. |
| Values.ComparatorReflexive | src/helpers.ts:47-65 | Every non-array value compares equal to itself. |
| Values.ComparatorAntisymmetric | src/helpers.ts:47-65 | On non-array values, swapping the operands negates the result. |
| Values.ComparatorTransitive | src/helpers.ts:47-65 | On non-array values, "not greater" is transitive, and it is strict when either step is strict. |
| Values.Member | src/helpers.ts:68 | A property read on anything but an object or array is `undefined`; on an object it is the value of the first entry with that key. |
| Values.GetValue | src/helpers.ts:67-73 | A lookup through a non-object is `undefined`, and a one-step path is a single property read. |
| Values.GetValueAppend | src/helpers.ts:67-73 | Looking up path `p + q` is looking up `p`, then `q` in the result, where a missing intermediate value stays missing. |
| Values.StripUndefined | src/helpers.ts:75-98 | Sanitising keeps the kind of the value and leaves primitives, including `null`, unchanged. |
| Values.StripIsClean | src/helpers.ts:75-98 | After sanitising a defined value, no `undefined` remains anywhere in it. |
| Values.StripItemsAppend | src/helpers.ts:76-82 | Sanitising an array splits over concatenation: each element is kept or dropped on its own, and the kept ones stay in order. |
| Values.StripEntriesAppend | src/helpers.ts:84-95 | Sanitising an object's entries splits over concatenation. |
| Values.LookupStripEntries | src/helpers.ts:84-95 | With distinct keys, reading a key of the sanitised object gives the sanitised value of that key, and `undefined` when it was missing or `undefined`. |
| Values.StripCleanIsIdentity | src/helpers.ts:75-98 | A value without `undefined` anywhere is left unchanged. |
| Values.StripIdempotent | src/helpers.ts:75-98 | Sanitising twice is the same as sanitising once. |
| Operators.Equal | src/helpers.ts:100-110 | The result is a boolean or unknown. It is unknown exactly when an operand is `undefined`. Otherwise it is false across kinds and is the `deepEqual` of the operands. |
| Operators.NotEqual | src/helpers.ts:112-115 | The result is the Kleene negation of `equal`. |
| Operators.EqualReflexive | src/helpers.ts:100-115 | Every defined value whose objects have distinct keys equals itself and is not unequal to itself. |
| Operators.EqualOnPrimitives | src/helpers.ts:100-110 | On defined primitives, `equal` is value equality. |
| Operators.Compare | src/helpers.ts:117-139 | The result is unknown across kinds, on `undefined`, on arrays and on objects. On two primitives of one kind it is a boolean exactly for `>`, `>=`, `<` and `<=`, and otherwise an unexpected-operator error. |
| Operators.CompareConverse | src/helpers.ts:127-135 | `a > b` is `b < a` and `a >= b` is `b <= a`, for all operands. |
| Operators.CompareAgreesWithComparator | src/helpers.ts:117-139 | On two primitives of one kind, `<` holds exactly when the comparator is negative and `<=` exactly when it is not positive. |
| Operators.And | src/helpers.ts:141-147 | The result is a boolean or unknown, and it is the Kleene conjunction of the operands' truth values. |
| Operators.Or | src/helpers.ts:149-155 | The result is a boolean or unknown, and it is the Kleene disjunction of the operands' truth values. |
| Operators.Not | src/helpers.ts:157 | The result is a boolean or unknown, and it is the Kleene negation of the operand's truth value. |
| Operators.DeMorgan | src/helpers.ts:141-157 | De Morgan's laws hold for all operands, booleans or not. |
| Operators.ToInt32 | src/helpers.ts:175-189 | The 32-bit conversion gives the signed 32-bit integer congruent to the input modulo 2^32, and leaves 32-bit inputs unchanged. |
| Operators.JsRemainder | src/helpers.ts:173-174 | `%` gives a remainder smaller than the divisor in magnitude, with the sign of the dividend. |
| Operators.JsRemainderIsTruncatedRemainder | src/helpers.ts:173-174 | `%` is the remainder of division rounded toward zero: dividend = quotient * divisor + remainder. |
| Operators.JsDivide | src/helpers.ts:171-172 | `/` yields an integer exactly when the divisor is non-zero and divides the dividend; the quotient times the divisor is then the dividend. |
| Operators.Bitwise | src/helpers.ts:175-189 | `|`, `&`, `^`, `<<` and `>>` yield signed 32-bit integers. |
| Operators.ShiftDown | src/helpers.ts:187-192 | Shifting right keeps the sign and never increases the magnitude. |
| Operators.UnsignedShiftRight | src/helpers.ts:190-192 | `>>>` yields an unsigned 32-bit integer. |
| Operators.Calculate | src/helpers.ts:159-196 | The result is unknown unless both operands are numbers. On numbers, an unexpected-operator error occurs exactly for operators outside the eleven supported ones. Bitwise results are 32-bit. `%` and `/` fail exactly on a zero divisor or a non-integral quotient, and otherwise give the truncated remainder or the exact quotient. |
| Operators.CalculateUnary | src/helpers.ts:198-214 | The result is unknown unless the operand is a number. On numbers it fails exactly for operators other than `+`, `-` and `~`, and `~` yields a signed 32-bit integer. |
| Operators.UnaryInvolutions | src/helpers.ts:204-210 | `-(-x)` is `x`, and `~~x` is the 32-bit truncation of `x`. |
| Operators.Concat | src/helpers.ts:216-217 | The result is a string exactly when both operands are strings, and is then the first followed by the second; otherwise it is unknown. |
| Operators.ConcatAssociative | src/helpers.ts:216-217 | Concatenation is associative, including when an operand is not a string. |
| Operators.Exists | src/helpers.ts:354-355 | The result is false exactly for the empty list and for the list holding only `undefined`. |
| Ordering.DirCmp | src/helpers.ts:251-252 | One ORDER BY item ties exactly where the comparator ties. It is negative exactly when the comparator is negative (ascending) or positive (descending). |
| Ordering.LexCmpFirstDifference | src/helpers.ts:247-253 | Two key tuples tie exactly when every ORDER BY item ties. Otherwise the first item that does not tie decides, with its direction. |
| Ordering.RowCmpDecides | src/helpers.ts:246-259 | The `sort` callback ties two rows exactly when all their ORDER BY values and their identifiers tie. When the ORDER BY values all tie, the identifiers decide; otherwise the first ORDER BY item that does not tie decides. |
| Ordering.LexCmpReflexive | src/helpers.ts:247-253 | A key tuple without arrays ties with itself. |
| Ordering.LexCmpAntisymmetric | src/helpers.ts:247-253 | Comparing two key tuples the other way round negates the result. |
| Ordering.LexCmpTransitive | src/helpers.ts:247-253 | The key-tuple order is transitive, strictly so when either step is strict, and ties are transitive. |
| Ordering.RowCmpReflexive | src/helpers.ts:246-259 | Every row without array keys or identifier ties with itself under the `sort` callback. |
| Ordering.RowCmpAntisymmetric | src/helpers.ts:246-259 | The `sort` callback is antisymmetric on rows without array keys or identifiers. |
| Ordering.RowCmpTransitive | src/helpers.ts:246-259 | The `sort` callback is transitive on rows without array keys or identifiers. |
| Ordering.Insert | src/helpers.ts:246 | Inserting a row adds exactly that row to the multiset. |
| Ordering.InsertionSort | src/helpers.ts:246 | Sorting returns a permutation of its input. |
| Ordering.InsertSorted | src/helpers.ts:246-259 | Inserting into a sorted sequence keeps it sorted. |
| Ordering.InsertionSortSorted | src/helpers.ts:246-259 | Sorting rows without array keys or identifiers gives a sequence sorted by the ORDER BY items, then by identifier. |
| Ordering.KeepDefined | src/helpers.ts:263-264 | The filter keeps every row whose value is defined, as often as it occurs, and no other row. |
| Ordering.KeepDefinedPermutation | src/helpers.ts:261-264 | Filtering two permutations of each other gives permutations of each other. |
| Ordering.KeepDefinedSorted | src/helpers.ts:261-264 | Filtering a sorted sequence leaves it sorted. |
| Ordering.IndexFor | src/helpers.ts:227-237 | For every ORDER BY there is an index declaration that serves it: one item per ORDER BY item, with the path after the alias and the direction. |
| Ordering.Sort | src/helpers.ts:219-265 | `sort` fails exactly when there are two or more ORDER BY items, an index list is declared, and no index in it serves the ORDER BY. Otherwise it returns a permutation of the input (with one item, of the rows whose value is defined), sorted when no key or identifier is an array. |
| Ordering.SortIndexCheck | src/helpers.ts:227-244 | Omitting the index list skips validation, and declaring the index the ORDER BY needs always passes it. |
| Ordering.SortEmptyIndexListFails | src/helpers.ts:227-244 | An empty declared index list fails every multi-key ORDER BY with the missing-index error. |
| Pagination.Output | src/helpers.ts:348-349 | A page never holds more values than the rows it was built from. |
| Pagination.OutputIsClean | src/helpers.ts:348-349 | No value in a page holds `undefined`, at any depth. |
| Pagination.OutputOne | src/helpers.ts:348-349 | One row contributes its sanitised projection, or nothing when the projection is `undefined`. With `OutputAppend` this fixes the contents of every page. |
| Pagination.OutputAppend | src/helpers.ts:345-349 | The output of consecutive row ranges is the concatenation of their outputs. |
| Pagination.Probe | src/helpers.ts:282-304 | The resume callback fails only on a row whose identifier is falsy, and then with the continuation error. A row that reaches the identifier check (no stored ORDER BY values, or values that tie the token's) with a falsy identifier always fails. When it skips, its count either stays the same or grows by one. |
| Pagination.FindIndex | src/helpers.ts:282-306 | The resume scan stops at or after its start and at most at the end. At its first position, an error from the callback ends the scan with that error, and `Found` stops it there. |
| Pagination.FindIndexFails | src/helpers.ts:282-306 | When the callback skips every position up to `k` and throws at `k`, the scan fails with that error. |
| Pagination.FindIndexError | src/helpers.ts:294-298 | The scan fails only with an error the callback raises. |
| Pagination.FindResume | src/helpers.ts:278-309 | The resume point lies within the collection or one past its end. The only possible error is the continuation error. |
| Pagination.FindIndexExhausted | src/helpers.ts:282-306 | When the callback skips every position, the resume point is one past the last row. |
| Pagination.FindResumePastEnd | src/helpers.ts:282-306 | A token whose ORDER BY values lie beyond those of every row resumes one past the last row. |
| Pagination.Start | src/helpers.ts:278-309 | A call without a continuation starts at row 0; a resumed call that succeeds starts at most one past the last row. Where it resumes is stated by `ResumeAtBoundary`. |
| Pagination.SameRidRun | src/helpers.ts:330-335 | The count is the length of the longest run of rows just before the boundary whose identifiers are `===` to the given one. |
| Pagination.CountSameRid | src/helpers.ts:330-335 | The backward scan computes that run length: every row it counts shares the identifier, and the row before them does not. |
| Pagination.TokenAt | src/helpers.ts:317-337 | The token for a leftover row names that row's identifier and carries the given round and total. It stores that row's ORDER BY values exactly when there are ORDER BY items. Its `SRC` counts the rows just before that row that share its identifier. |
| Pagination.PageAfter | src/helpers.ts:311-352 | Once resumed: a failure means a positive page size and a leftover row without identifier; a page holds at most the page size; without a continuation it holds every remaining row; a continuation occurs only with a positive page size. |
| Pagination.Paginate | src/helpers.ts:267-352 | `paginate` fails with the continuation error exactly when resuming fails. Every page holds at most a positive page size of values. A page without a continuation holds all rows from the resume point. A continuation occurs only with a positive page size. |
| Pagination.PageAfterUnlimited | src/helpers.ts:315-351 | Without a positive page size, every remaining row is returned and there is no continuation. |
| Pagination.PageAfterLastPage | src/helpers.ts:315-346 | When at most a page remains, all of it is returned without continuation. |
| Pagination.PageAfterTruncates | src/helpers.ts:315-346 | When more than a page remains: a leftover row without identifier fails with the page-size error; otherwise the page is the next `m` rows, and the continuation is the token for the leftover row with round + 1 and total + `m`. |
| Pagination.ProbeBeforeRun | src/helpers.ts:283-299 | Over a valid scan, the resume callback skips every row before the run of rows sharing the boundary row's identifier, without counting it. |
| Pagination.ProbeInRun | src/helpers.ts:299-303 | Over a valid scan, the resume callback skips and counts each row of that run. |
| Pagination.ProbeAtBoundary | src/helpers.ts:283-301 | Over a valid scan, the resume callback stops at the boundary row once `SRC` rows have been counted. |
| Pagination.FindIndexSkips | src/helpers.ts:282-306 | A scan whose callback skips a prefix, then skips while counting a run, then stops, returns the stopping position. |
| Pagination.ResumeAtBoundary | src/helpers.ts:278-309 | Over a valid scan, the token built for any row makes the next call resume exactly at that row. |
| Pagination.PaginateFrom | src/helpers.ts:311-352 | A call resumed at position `b` returns the rows from `b`, truncated to the page size, together with the token for the row after them. |
| Pagination.PaginateFromBoundary | src/helpers.ts:278-352 | Over a valid scan, a call given the token for row `b` returns the page that starts at `b`, together with the token for the next boundary. |
| Pagination.PagerAtBoundaries | src/helpers.ts:278-346 | Over a valid scan, `paginate` answers every boundary token with the next page and the token for the boundary after it. |
| Pagination.PagerFirst | src/helpers.ts:311-346 | Over a valid scan, the first call returns the first page and the token for the first boundary. |
| Pagination.Collect | src/helpers.ts:337-351 | A caller that feeds every continuation back receives the pages from the start, every `m` positions, each once and in order, whenever each call answers a boundary token with the next page and the token for the boundary after it. |
| Pagination.PageThrough | src/helpers.ts:267-352 | Over a valid scan and any positive page size, paging through the rows by feeding each continuation back returns exactly what one unpaged call returns: every row once, in order. |
| Pagination.SplitRunToken | src/helpers.ts:330-335 | On three rows `{k: k1, id: a}`, `{k: k2, id: a}`, `{k: k2, id: b}` with `k1 < k2` and non-empty `a < b` (for instance 1, 2, "a", "b"), the token for row 1 has `SRC` 1, because row 0 shares row 1's identifier. |
| Pagination.ResumeSkipsSplitRun | src/helpers.ts:299-303 | On those rows with ORDER BY `k`, resuming with the token for row 1 starts at row 2: the callback does not count row 0, whose `k` is lower. The corrected token starts at row 1. |
| Pagination.SplitRunFirstPage | src/helpers.ts:267-352 | On those rows with page size 1, the first call returns row 0 and the token for row 1. |
| Pagination.SplitRunPages | src/helpers.ts:267-352 | Resuming with that token returns only row 2, so row 1 is never returned. |
| Pagination.TiedTokenAt | src/helpers.ts:317-337 | The corrected token carries the same identifier, round, total and ORDER BY values as the one `paginate` builds. |
| Pagination.TiedRun | src/helpers.ts:299-303 | The corrected count is the length of the run of rows just before the boundary that share its identifier and tie with its ORDER BY values. |
| Pagination.ResumeAtTiedBoundary | src/helpers.ts:278-309 | On any sorted scan with non-empty string identifiers and no array ORDER BY values, the corrected token makes the next call resume exactly at its row. |
| Pagination.TiedTokenAgrees | src/helpers.ts:317-337 | Over a valid scan, the corrected token is the token `paginate` builds. |

## Left out

- `src/index.ts`, the SQL parser, the compiler and the query executor are not part of this model. Only the helpers they call are modelled.
- The continuation-token codec (`src/continuation-token.ts`) is not part of this model. Tokens are passed decoded, which assumes that decoding an encoded token gives it back.
- Numbers are unbounded integers. IEEE-754 doubles, fractions, infinities, NaN, `-0` and numbers of 1e21 and above (printed in exponent notation) are not modelled. `calculate` reports a `/` or `%` whose JavaScript result is not an integer as a `NonIntegerResult` failure.
- Operators.Calculate: `+`, `-` and `*` are exact, so results beyond 2^53 are not rounded to doubles.
- A non-integer page size (such as 2.5) is not modelled; `maxItemCount` is an optional integer.
- Strings are sequences of characters compared character by character. UTF-16 surrogate pairs are not modelled.
- Reference identity is not modelled. Two array or object operands are never `===`, so `comparator` does not tie a composite value with itself when both sides are the same reference.
- `typeof` results that only JavaScript values have (`function`, `symbol`, `bigint`) are not modelled, since query values are JSON.
- Property lookup does not model inherited properties such as `__proto__` or `constructor`. A missing own property reads as `undefined`.
- Array values are excluded from the ordering lemmas (Ordering.InsertionSortSorted, Ordering.Sort, Pagination.PageThrough), because Values.ArrayComparatorInconsistent shows the comparator does not order them consistently. `Array.prototype.sort` with an inconsistent callback has no specified result.
- `Array.prototype.sort` is modelled as a stable insertion sort. Engines have been required to sort stably since ECMAScript 2019.
- Pagination.PageThrough: assumes a valid scan, as described above. Its neighbour condition is needed because of the `SRC` mismatch under Findings.
- `getRid` is optional in `paginate`. When a continuation or a positive page size is given without it, the call throws a `TypeError`. The model always takes a `getRid` function, so that error path is not modelled.
- The continuation's range (`""` to `"FF"`) is a fixed placeholder and is not interpreted.

## Findings

| source | as written | input that shows it | evidently intended | confidence | as-written member | corrected member |
|---|---|---|---|---|---|---|
| src/helpers.ts:330-335 | `SRC` counts the rows before the boundary whose identifier is `===` to the boundary row's, whatever their ORDER BY values. The resume callback (`src/helpers.ts:283-303`) counts only rows that also tie with the token's ORDER BY values. | Rows `{k: 1, id: "a"}`, `{k: 2, id: "a"}`, `{k: 2, id: "b"}` (or any `k1 < k2`, `a < b`), ORDER BY `k`, page size 1. The token for row 1 has `SRC` 1, and the next call starts at row 2, so row 1 is never returned. | `SRC` counts only the rows the resume callback counts: those sharing the boundary row's identifier and tying with its ORDER BY values. Resuming then starts exactly at the boundary row on any sorted scan. | medium, not executed. Rows sharing an identifier but not their ORDER BY values arise when a JOIN unrolls an array of one document. | Pagination.ResumeSkipsSplitRun | Pagination.ResumeAtTiedBoundary |

=== FILE: operators.dfy ===
/** The three-valued operators of `src/helpers.ts`: equality, relational
    comparison, Kleene logic, arithmetic, string concatenation and the
    existence check. `undefined` plays the part of "unknown" throughout: a
    kind mismatch is never an error, only an operator outside the supported
    set is. */
module Operators {
  import opened Wrappers
  import opened Values

  /** The truth value a query value stands for in a filter: only booleans are
      known. This is the reference against which the operators are stated. */
  datatype Tri = True | False | Unknown

  function ToTri(v: Value): Tri {
    match v
    case Bool(b) => if b then True else False
    case _ => Unknown
  }

  /** Kleene's strong three-valued conjunction, disjunction and negation. */
  function KleeneAnd(x: Tri, y: Tri): Tri {
    if x == False || y == False then False
    else if x == True && y == True then True
    else Unknown
  }

  function KleeneOr(x: Tri, y: Tri): Tri {
    if x == True || y == True then True
    else if x == False && y == False then False
    else Unknown
  }

  function KleeneNot(x: Tri): Tri {
    match x
    case True => False
    case False => True
    case Unknown => Unknown
  }

  /** A logical result: a boolean, or `undefined` for unknown. */
  predicate IsLogical(v: Value) { v.Bool? || v == Undefined }

  // ---------------------------------------------------------------------
  // Equality.

  /** `equal`: unknown when an operand is missing, false across kinds,
      otherwise `deepEqual`. */
  function Equal(a: Value, b: Value): (r: Value)
    ensures IsLogical(r)
    ensures r == Undefined <==> a == Undefined || b == Undefined
    ensures a != Undefined && b != Undefined && TypeOf(a) != TypeOf(b) ==> r == Bool(false)
    ensures a != Undefined && b != Undefined ==> r == Bool(DeepEqual(a, b))
  {
    if a == Undefined || b == Undefined then Undefined
    else if !EqualTypes(a, b) then Bool(false)
    else Bool(DeepEqual(a, b))
  }

  /** `notEqual`: the negation of `equal`, keeping unknown unknown. */
  function NotEqual(a: Value, b: Value): (r: Value)
    ensures IsLogical(r)
    ensures ToTri(r) == KleeneNot(ToTri(Equal(a, b)))
  {
    var eq := Equal(a, b);
    if eq != Undefined then Bool(!eq.b) else Undefined
  }

  /** Every defined, well-formed value equals itself. */
  lemma EqualReflexive(v: Value)
    requires v != Undefined && WellFormed(v)
    ensures Equal(v, v) == Bool(true)
    ensures NotEqual(v, v) == Bool(false)
  {
    DeepEqualReflexive(v);
  }

  /** On defined primitives `equal` is plain value equality. */
  lemma EqualOnPrimitives(a: Value, b: Value)
    requires a != Undefined && b != Undefined && IsPrimitive(a)
    ensures Equal(a, b) == Bool(a == b)
  {
  }

  // ---------------------------------------------------------------------
  // Relational comparison.

  const RelationalOperators: set<string> := {">", ">=", "<", "<="}

  /** `compare`: unknown across kinds and on arrays and objects; otherwise
      JavaScript's relational operator. The operator is only inspected once
      the operands pass those checks, so an unsupported operator on
      mismatched operands still yields unknown. */
  function Compare(operator: string, a: Value, b: Value): (r: Result<Value>)
    ensures !EqualTypes(a, b) || a.Arr? || a.Obj? ==> r == Success(Undefined)
    ensures EqualTypes(a, b) && IsPrimitive(a) ==>
              (r.Failure? <==> operator !in RelationalOperators)
              && (r.Success? ==> r.value.Bool?)
    ensures r.Failure? ==> r.error == UnexpectedOperator(operator)
  {
    if !EqualTypes(a, b) then Success(Undefined)
    else if a.Obj? || a.Arr? then Success(Undefined)
    else if operator == ">" then Success(Bool(JsLess(b, a)))
    else if operator == ">=" then Success(Bool(!JsLess(a, b)))
    else if operator == "<" then Success(Bool(JsLess(a, b)))
    else if operator == "<=" then Success(Bool(!JsLess(b, a)))
    else Failure(UnexpectedOperator(operator))
  }

  /** `a > b` is `b < a` and `a >= b` is `b <= a`, for all operands. */
  lemma CompareConverse(a: Value, b: Value)
    ensures Compare(">", a, b) == Compare("<", b, a)
    ensures Compare(">=", a, b) == Compare("<=", b, a)
  {
  }

  /** On two primitives of one kind, `compare` agrees with the ORDER BY
      comparator: `<` is "comparator negative", `<=` is "comparator not
      positive". */
  lemma CompareAgreesWithComparator(a: Value, b: Value)
    requires EqualTypes(a, b) && IsPrimitive(a)
    ensures Compare("<", a, b) == Success(Bool(Comparator(a, b) < 0))
    ensures Compare("<=", a, b) == Success(Bool(Comparator(a, b) <= 0))
  {
    if a.Str? {
      StrLessIrreflexive(a.s);
      StrLessAsymmetric(a.s, b.s);
      StrLessTotal(a.s, b.s);
    }
  }

  // ---------------------------------------------------------------------
  // Kleene logic.

  /** `and`: false as soon as either operand is exactly `false`. */
  function And(a: Value, b: Value): (r: Value)
    ensures IsLogical(r)
    ensures ToTri(r) == KleeneAnd(ToTri(a), ToTri(b))
  {
    if !a.Bool? || !b.Bool? then
      (if a == Bool(false) || b == Bool(false) then Bool(false) else Undefined)
    else Bool(a.b && b.b)
  }

  /** `or`: true as soon as either operand is exactly `true`. */
  function Or(a: Value, b: Value): (r: Value)
    ensures IsLogical(r)
    ensures ToTri(r) == KleeneOr(ToTri(a), ToTri(b))
  {
    if !a.Bool? || !b.Bool? then
      (if a == Bool(true) || b == Bool(true) then Bool(true) else Undefined)
    else Bool(a.b || b.b)
  }

  /** `not`: negation on booleans, unknown otherwise. */
  function Not(v: Value): (r: Value)
    ensures IsLogical(r)
    ensures ToTri(r) == KleeneNot(ToTri(v))
  {
    if v.Bool? then Bool(!v.b) else Undefined
  }

  /** De Morgan's laws hold for every pair of operands, booleans or not. */
  lemma DeMorgan(a: Value, b: Value)
    ensures Not(And(a, b)) == Or(Not(a), Not(b))
    ensures Not(Or(a, b)) == And(Not(a), Not(b))
  {
  }

  // ---------------------------------------------------------------------
  // Arithmetic.

  const TwoTo32: int := 0x1_0000_0000
  const TwoTo31: int := 0x8000_0000

  predicate IsInt32(x: int) { -TwoTo31 <= x < TwoTo31 }

  predicate IsUint32(x: int) { 0 <= x < TwoTo32 }

  /** ECMAScript ToUint32 of an integer-valued number. */
  function ToUint32(x: int): (r: int)
    ensures IsUint32(r)
    ensures (x - r) % TwoTo32 == 0
  {
    x % TwoTo32
  }

  /** ECMAScript ToInt32 of an integer-valued number: the signed 32-bit
      integer congruent to it modulo 2^32. */
  function ToInt32(x: int): (r: int)
    ensures IsInt32(r)
    ensures (x - r) % TwoTo32 == 0
    ensures IsInt32(x) ==> r == x
  {
    var u := ToUint32(x);
    if u >= TwoTo31 then u - TwoTo32 else u
  }

  function Pow2(k: nat): (r: nat)
    ensures r > 0
  {
    if k == 0 then 1 else 2 * Pow2(k - 1)
  }

  function AsBits(x: int): bv32 {
    ToUint32(x) as bv32
  }

  /** JavaScript `%` on integers: truncating division, so the remainder takes
      the sign of the dividend. A zero divisor gives NaN. */
  function JsRemainder(a: int, b: int): (r: int)
    requires b != 0
    ensures -Abs(b) < r < Abs(b)
    ensures r != 0 ==> (r < 0 <==> a < 0)
  {
    if a >= 0 then a % Abs(b) else -((-a) % Abs(b))
  }

  /** The quotient of truncating division, rounded toward zero. */
  function TruncatedQuotient(a: int, b: int): int
    requires b != 0
  {
    var q := Abs(a) / Abs(b);
    if (a < 0) == (b < 0) then q else -q
  }

  /** `%` is the remainder of truncating division: dividend = quotient *
      divisor + remainder. */
  lemma JsRemainderIsTruncatedRemainder(a: int, b: int)
    requires b != 0
    ensures a == TruncatedQuotient(a, b) * b + JsRemainder(a, b)
  {
    var m, q, r := Abs(b), Abs(a) / Abs(b), Abs(a) % Abs(b);
    EuclidOnNat(Abs(a), m);
    assert TruncatedQuotient(a, b) == if (a < 0) == (b < 0) then q else -q;
    assert JsRemainder(a, b) == if a >= 0 then r else -r;
    SignedProduct(q, m, b);
  }

  /** Division with remainder on a non-negative dividend. */
  lemma EuclidOnNat(n: nat, m: int)
    requires m > 0
    ensures n == (n / m) * m + n % m
  {
  }

  /** Moving the divisor's sign onto the quotient. */
  lemma SignedProduct(q: int, m: int, b: int)
    requires m == Abs(b)
    ensures q * m == (if b < 0 then -q else q) * b
  {
    if b < 0 {
      assert (-q) * b == q * (-b);
    }
  }

  /** JavaScript `/` on integers when the quotient is an integer; otherwise
      the double it yields (a fraction, an infinity or NaN) is outside the
      integer model. */
  function JsDivide(x: int, y: int): (r: Result<int>)
    ensures r.Success? <==> y != 0 && x % y == 0
    ensures r.Success? ==> r.value * y == x
    ensures r.Failure? ==> r.error == NonIntegerResult
  {
    if y != 0 && x % y == 0 then
      assert x == y * (x / y) + x % y;
      Success(x / y)
    else Failure(NonIntegerResult)
  }

  function Abs(x: int): (r: int)
    ensures r >= 0 && (r == x || r == -x)
  {
    if x < 0 then -x else x
  }

  const BinaryOperators: set<string> :=
    {"+", "-", "*", "/", "%", "|", "&", "^", "<<", ">>", ">>>"}

  const BitwiseOperators: set<string> := {"|", "&", "^", "<<", ">>"}

  /** The bitwise operators on the 32-bit truncations of their operands; the
      shift count is taken modulo 32. */
  function Bitwise(operator: string, x: int, y: int): (r: int)
    requires operator in BitwiseOperators
    ensures IsInt32(r)
  {
    var shift := ToUint32(y) % 32;
    if operator == "|" then ToInt32((AsBits(x) | AsBits(y)) as int)
    else if operator == "&" then ToInt32((AsBits(x) & AsBits(y)) as int)
    else if operator == "^" then ToInt32((AsBits(x) ^ AsBits(y)) as int)
    else if operator == "<<" then ToInt32(ToInt32(x) * Pow2(shift))
    else ShiftDown(ToInt32(x), shift)
  }

  /** Shifting right by `k` places: halving `k` times, rounding toward minus
      infinity each time, as `>>` and `>>>` do; the result lies between zero
      and the dividend. */
  function ShiftDown(x: int, k: nat): (r: int)
    ensures x >= 0 ==> 0 <= r <= x
    ensures x < 0 ==> x <= r < 0
  {
    if k == 0 then x else ShiftDown(x, k - 1) / 2
  }

  /** `>>>`: the unsigned 32-bit truncation shifted right, zeros shifted in. */
  function UnsignedShiftRight(x: int, y: int): (r: int)
    ensures IsUint32(r)
  {
    ShiftDown(ToUint32(x), ToUint32(y) % 32)
  }

  /** `calculate`: unknown unless both operands are numbers. Sums, differences
      and products are exact; `/` and `%` yield a number only when the exact
      result is an integer; the bitwise operators act on the 32-bit
      truncations of their operands. */
  function Calculate(operator: string, a: Value, b: Value): (r: Result<Value>)
    ensures !(a.Num? && b.Num?) ==> r == Success(Undefined)
    ensures r.Success? ==> r.value == Undefined || r.value.Num?
    ensures a.Num? && b.Num? ==>
              (r.Failure? && r.error.UnexpectedOperator? <==> operator !in BinaryOperators)
    ensures a.Num? && b.Num? && operator in BitwiseOperators ==>
              r.Success? && r.value.Num? && IsInt32(r.value.n)
    ensures a.Num? && b.Num? && operator == ">>>" ==>
              r.Success? && r.value.Num? && IsUint32(r.value.n)
    ensures a.Num? && b.Num? && operator == "%" ==>
              (r.Success? <==> b.n != 0) && (r.Success? ==> r.value == Num(JsRemainder(a.n, b.n)))
    ensures a.Num? && b.Num? && operator == "/" ==>
              (r.Success? <==> b.n != 0 && a.n % b.n == 0) && (r.Success? ==> r.value.Num? && r.value.n * b.n == a.n)
              && (r.Failure? ==> r.error == NonIntegerResult)
  {
    if !a.Num? || !b.Num? then Success(Undefined)
    else
      var x, y := a.n, b.n;
      if operator == "+" then Success(Num(x + y))
      else if operator == "-" then Success(Num(x - y))
      else if operator == "*" then Success(Num(x * y))
      else if operator == "/" then
        (var q :- JsDivide(x, y); Success(Num(q)))
      else if operator == "%" then
        (if y != 0 then Success(Num(JsRemainder(x, y))) else Failure(NonIntegerResult))
      else if operator in BitwiseOperators then Success(Num(Bitwise(operator, x, y)))
      else if operator == ">>>" then Success(Num(UnsignedShiftRight(x, y)))
      else Failure(UnexpectedOperator(operator))
  }

  const UnaryOperators: set<string> := {"+", "-", "~"}

  /** `calculateUnary`: unknown unless the operand is a number. */
  function CalculateUnary(operator: string, v: Value): (r: Result<Value>)
    ensures !v.Num? ==> r == Success(Undefined)
    ensures v.Num? ==> (r.Failure? <==> operator !in UnaryOperators)
    ensures r.Failure? ==> r.error == UnexpectedOperator(operator)
    ensures v.Num? && operator == "~" ==> r.Success? && r.value.Num? && IsInt32(r.value.n)
  {
    if !v.Num? then Success(Undefined)
    else if operator == "+" then Success(v)
    else if operator == "-" then Success(Num(-v.n))
    else if operator == "~" then Success(Num(-ToInt32(v.n) - 1))
    else Failure(UnexpectedOperator(operator))
  }

  /** Negation is an involution, and `~~x` is the 32-bit truncation of `x`. */
  lemma UnaryInvolutions(n: int)
    ensures CalculateUnary("-", CalculateUnary("-", Num(n)).value) == Success(Num(n))
    ensures CalculateUnary("~", CalculateUnary("~", Num(n)).value) == Success(Num(ToInt32(n)))
  {
    var t := -ToInt32(n) - 1;
    assert IsInt32(t);
    assert ToInt32(t) == t;
  }

  // ---------------------------------------------------------------------
  // Strings and existence.

  /** `concat`: string concatenation when both operands are strings. */
  function Concat(a: Value, b: Value): (r: Value)
    ensures r.Str? <==> a.Str? && b.Str?
    ensures !r.Str? ==> r == Undefined
    ensures r.Str? ==> |r.s| == |a.s| + |b.s| && r.s[..|a.s|] == a.s && r.s[|a.s|..] == b.s
  {
    if a.Str? && b.Str? then Str(a.s + b.s) else Undefined
  }

  /** Concatenation is associative even when an operand is unknown. */
  lemma ConcatAssociative(a: Value, b: Value, c: Value)
    ensures Concat(Concat(a, b), c) == Concat(a, Concat(b, c))
  {
    if a.Str? && b.Str? && c.Str? {
      assert (a.s + b.s) + c.s == a.s + (b.s + c.s);
    }
  }

  /** `exists`: the executor hands back either the matching rows or a single
      possibly-`undefined` sentinel. Only the empty list and the lone
      `undefined` mean "nothing exists". */
  function Exists(rows: seq<Value>): (r: bool)
    ensures !r <==> rows == [] || rows == [Undefined]
  {
    if |rows| > 1 then true
    else |rows| == 1 && rows[0] != Undefined
  }
}

=== FILE: ordering.dfy ===
/** The ordering engine of `src/helpers.ts` (`sort`): the composite-index
    check for multi-key ORDER BY, the lexicographic row comparison with a
    final tie-break on the row identifier, and the single-key filter. */
module Ordering {
  import opened Wrappers
  import opened Values

  /** One ORDER BY item: a property path whose first segment is the FROM
      alias, and its direction. */
  datatype Order = Order(keys: seq<string>, desc: bool)

  /** One item of a declared composite index: a slash path and "ascending"
      or "descending". */
  datatype CompositeIndex = CompositeIndex(path: string, order: string)

  // ---------------------------------------------------------------------
  // Row comparison.

  /** `comparator`, negated for a descending item. */
  function DirCmp(o: Order, a: Value, b: Value): (r: int)
    ensures r == -1 || r == 0 || r == 1
    ensures r == 0 <==> Comparator(a, b) == 0
    ensures r < 0 <==> if o.desc then Comparator(a, b) > 0 else Comparator(a, b) < 0
  {
    var r := Comparator(a, b);
    if o.desc then -r else r
  }

  /** Element `i` of a JavaScript array, `undefined` past its end. */
  function At(s: seq<Value>, i: nat): Value {
    if i < |s| then s[i] else Undefined
  }

  /** The values of the ORDER BY paths in document `d`. */
  function KeysOf(d: Value, orders: seq<Order>): (r: seq<Value>)
    ensures |r| == |orders|
  {
    seq(|orders|, i requires 0 <= i < |orders| => GetValue(d, orders[i].keys))
  }

  /** Compares two key tuples item by item from position `i`: the first item
      that does not tie decides (with its direction), otherwise 0. */
  function LexCmp(orders: seq<Order>, ka: seq<Value>, kb: seq<Value>, i: nat): (r: int)
    requires i <= |orders|
    ensures r == -1 || r == 0 || r == 1
    decreases |orders| - i
  {
    if i == |orders| then 0
    else
      var r := DirCmp(orders[i], At(ka, i), At(kb, i));
      if r != 0 then r else LexCmp(orders, ka, kb, i + 1)
  }

  /** The comparison function `sort` hands to `Array.prototype.sort`: ORDER BY
      items first, then the row identifier ascending. */
  function RowCmp(orders: seq<Order>, getRid: Value -> Value, a: Value, b: Value): (r: int)
    ensures r == -1 || r == 0 || r == 1
  {
    var r := LexCmp(orders, KeysOf(a, orders), KeysOf(b, orders), 0);
    if r != 0 then r else Comparator(getRid(a), getRid(b))
  }

  predicate OrderableKeys(orders: seq<Order>, k: seq<Value>) {
    forall j :: 0 <= j < |orders| ==> Orderable(At(k, j))
  }

  /** A row the comparison orders consistently: no ORDER BY value and no row
      identifier is an array. */
  predicate OrderableRow(orders: seq<Order>, getRid: Value -> Value, d: Value) {
    OrderableKeys(orders, KeysOf(d, orders)) && Orderable(getRid(d))
  }

  predicate AllOrderable(orders: seq<Order>, getRid: Value -> Value, rows: seq<Value>) {
    forall i :: 0 <= i < |rows| ==> OrderableRow(orders, getRid, rows[i])
  }

  predicate Sorted(orders: seq<Order>, getRid: Value -> Value, rows: seq<Value>) {
    forall i, j {:trigger RowCmp(orders, getRid, rows[i], rows[j])} ::
      0 <= i < j < |rows| ==> RowCmp(orders, getRid, rows[i], rows[j]) <= 0
  }

  lemma DirCmpAntisymmetric(o: Order, a: Value, b: Value)
    requires Orderable(a) && Orderable(b)
    ensures DirCmp(o, a, b) == -DirCmp(o, b, a)
  {
    ComparatorAntisymmetric(a, b);
  }

  lemma DirCmpTransitive(o: Order, a: Value, b: Value, c: Value)
    requires Orderable(a) && Orderable(b) && Orderable(c)
    requires DirCmp(o, a, b) <= 0 && DirCmp(o, b, c) <= 0
    ensures DirCmp(o, a, c) <= 0
    ensures DirCmp(o, a, b) < 0 || DirCmp(o, b, c) < 0 ==> DirCmp(o, a, c) < 0
  {
    ComparatorAntisymmetric(a, b);
    ComparatorAntisymmetric(b, c);
    ComparatorAntisymmetric(a, c);
    if o.desc {
      ComparatorTransitive(c, b, a);
    } else {
      ComparatorTransitive(a, b, c);
    }
  }

  lemma {:induction false} LexCmpReflexive(orders: seq<Order>, k: seq<Value>, i: nat)
    requires i <= |orders| && OrderableKeys(orders, k)
    ensures LexCmp(orders, k, k, i) == 0
    decreases |orders| - i
  {
    if i < |orders| {
      ComparatorReflexive(At(k, i));
      LexCmpReflexive(orders, k, i + 1);
    }
  }

  lemma {:induction false} LexCmpAntisymmetric(orders: seq<Order>, ka: seq<Value>, kb: seq<Value>, i: nat)
    requires i <= |orders| && OrderableKeys(orders, ka) && OrderableKeys(orders, kb)
    ensures LexCmp(orders, ka, kb, i) == -LexCmp(orders, kb, ka, i)
    decreases |orders| - i
  {
    if i < |orders| {
      DirCmpAntisymmetric(orders[i], At(ka, i), At(kb, i));
      LexCmpAntisymmetric(orders, ka, kb, i + 1);
    }
  }

  lemma {:induction false} LexCmpTransitive(orders: seq<Order>, ka: seq<Value>, kb: seq<Value>, kc: seq<Value>, i: nat)
    requires i <= |orders|
    requires OrderableKeys(orders, ka) && OrderableKeys(orders, kb) && OrderableKeys(orders, kc)
    requires LexCmp(orders, ka, kb, i) <= 0 && LexCmp(orders, kb, kc, i) <= 0
    ensures LexCmp(orders, ka, kc, i) <= 0
    ensures LexCmp(orders, ka, kb, i) < 0 || LexCmp(orders, kb, kc, i) < 0 ==> LexCmp(orders, ka, kc, i) < 0
    ensures LexCmp(orders, ka, kb, i) == 0 && LexCmp(orders, kb, kc, i) == 0 ==> LexCmp(orders, ka, kc, i) == 0
    decreases |orders| - i
  {
    if i < |orders| {
      var o, a, b, c := orders[i], At(ka, i), At(kb, i), At(kc, i);
      var r1, r2 := DirCmp(o, a, b), DirCmp(o, b, c);
      if r1 == 0 && r2 == 0 {
        DirCmpTransitive(o, a, b, c);
        DirCmpTransitive(o, c, b, a) by {
          DirCmpAntisymmetric(o, a, b);
          DirCmpAntisymmetric(o, b, c);
        }
        DirCmpAntisymmetric(o, a, c);
        LexCmpTransitive(orders, ka, kb, kc, i + 1);
      } else {
        DirCmpTransitive(o, a, b, c);
      }
    }
  }

  /** The ORDER BY items from `i` up to `j` tie on the two key tuples. */
  predicate KeysTie(orders: seq<Order>, ka: seq<Value>, kb: seq<Value>, i: nat, j: nat) {
    forall k :: i <= k < j ==> Comparator(At(ka, k), At(kb, k)) == 0
  }

  /** The key tuples tie exactly when every item from `i` on ties; otherwise
      the first item that does not tie decides, with its direction. */
  lemma {:induction false} LexCmpFirstDifference(orders: seq<Order>, ka: seq<Value>, kb: seq<Value>, i: nat)
    requires i <= |orders|
    ensures LexCmp(orders, ka, kb, i) == 0 <==> KeysTie(orders, ka, kb, i, |orders|)
    ensures LexCmp(orders, ka, kb, i) != 0 ==>
      exists j :: i <= j < |orders| && KeysTie(orders, ka, kb, i, j) &&
        LexCmp(orders, ka, kb, i) == DirCmp(orders[j], At(ka, j), At(kb, j)) != 0
    decreases |orders| - i
  {
    if i < |orders| {
      LexCmpFirstDifference(orders, ka, kb, i + 1);
      if DirCmp(orders[i], At(ka, i), At(kb, i)) == 0 && LexCmp(orders, ka, kb, i + 1) != 0 {
        var j :| i + 1 <= j < |orders| && KeysTie(orders, ka, kb, i + 1, j) &&
          LexCmp(orders, ka, kb, i + 1) == DirCmp(orders[j], At(ka, j), At(kb, j)) != 0;
        assert KeysTie(orders, ka, kb, i, j);
      }
    }
  }

  /** The `sort` callback ties two rows exactly when every ORDER BY value and
      the identifiers tie; when the ORDER BY values all tie, the identifiers
      decide, and otherwise the first ORDER BY item that does not tie does. */
  lemma RowCmpDecides(orders: seq<Order>, getRid: Value -> Value, a: Value, b: Value)
    ensures var ka, kb := KeysOf(a, orders), KeysOf(b, orders);
      && (RowCmp(orders, getRid, a, b) == 0 <==>
            KeysTie(orders, ka, kb, 0, |orders|) && Comparator(getRid(a), getRid(b)) == 0)
      && (KeysTie(orders, ka, kb, 0, |orders|) ==>
            RowCmp(orders, getRid, a, b) == Comparator(getRid(a), getRid(b)))
      && (!KeysTie(orders, ka, kb, 0, |orders|) ==>
            exists j :: 0 <= j < |orders| && KeysTie(orders, ka, kb, 0, j) &&
              RowCmp(orders, getRid, a, b) == DirCmp(orders[j], At(ka, j), At(kb, j)) != 0)
  {
    LexCmpFirstDifference(orders, KeysOf(a, orders), KeysOf(b, orders), 0);
  }

  lemma RowCmpReflexive(orders: seq<Order>, getRid: Value -> Value, a: Value)
    requires OrderableRow(orders, getRid, a)
    ensures RowCmp(orders, getRid, a, a) == 0
  {
    LexCmpReflexive(orders, KeysOf(a, orders), 0);
    ComparatorReflexive(getRid(a));
  }

  lemma RowCmpAntisymmetric(orders: seq<Order>, getRid: Value -> Value, a: Value, b: Value)
    requires OrderableRow(orders, getRid, a) && OrderableRow(orders, getRid, b)
    ensures RowCmp(orders, getRid, a, b) == -RowCmp(orders, getRid, b, a)
  {
    LexCmpAntisymmetric(orders, KeysOf(a, orders), KeysOf(b, orders), 0);
    ComparatorAntisymmetric(getRid(a), getRid(b));
  }

  lemma RowCmpTransitive(orders: seq<Order>, getRid: Value -> Value, a: Value, b: Value, c: Value)
    requires OrderableRow(orders, getRid, a) && OrderableRow(orders, getRid, b) && OrderableRow(orders, getRid, c)
    requires RowCmp(orders, getRid, a, b) <= 0 && RowCmp(orders, getRid, b, c) <= 0
    ensures RowCmp(orders, getRid, a, c) <= 0
    ensures RowCmp(orders, getRid, a, b) < 0 || RowCmp(orders, getRid, b, c) < 0 ==> RowCmp(orders, getRid, a, c) < 0
  {
    var ka, kb, kc := KeysOf(a, orders), KeysOf(b, orders), KeysOf(c, orders);
    LexCmpTransitive(orders, ka, kb, kc, 0);
    if LexCmp(orders, ka, kb, 0) == 0 && LexCmp(orders, kb, kc, 0) == 0 {
      ComparatorTransitive(getRid(a), getRid(b), getRid(c));
    }
  }

  // ---------------------------------------------------------------------
  // Sorting: a stable insertion sort, which is what a stable
  // `Array.prototype.sort` produces for a consistent comparison.

  /** Inserts `x` after every element that does not compare above it. */
  function Insert(orders: seq<Order>, getRid: Value -> Value, x: Value, s: seq<Value>): (r: seq<Value>)
    ensures multiset(r) == multiset(s) + multiset{x}
    ensures |r| == |s| + 1
  {
    if |s| == 0 then [x]
    else if RowCmp(orders, getRid, x, s[0]) < 0 then [x] + s
    else
      assert s == [s[0]] + s[1..];
      [s[0]] + Insert(orders, getRid, x, s[1..])
  }

  function InsertionSort(orders: seq<Order>, getRid: Value -> Value, s: seq<Value>): (r: seq<Value>)
    ensures multiset(r) == multiset(s)
  {
    if |s| == 0 then []
    else
      assert s == s[..|s| - 1] + [s[|s| - 1]];
      Insert(orders, getRid, s[|s| - 1], InsertionSort(orders, getRid, s[..|s| - 1]))
  }

  lemma SortedCons(orders: seq<Order>, getRid: Value -> Value, h: Value, t: seq<Value>)
    requires Sorted(orders, getRid, t)
    requires forall k :: 0 <= k < |t| ==> RowCmp(orders, getRid, h, t[k]) <= 0
    ensures Sorted(orders, getRid, [h] + t)
  {
    var r := [h] + t;
    assert r[0] == h;
    forall j | 0 < j < |r| ensures RowCmp(orders, getRid, r[0], r[j]) <= 0 {
      assert r[j] == t[j - 1];
    }
    forall i, j | 0 < i < j < |r| ensures RowCmp(orders, getRid, r[i], r[j]) <= 0 {
      assert r[i] == t[i - 1] && r[j] == t[j - 1];
    }
  }

  lemma SortedTail(orders: seq<Order>, getRid: Value -> Value, s: seq<Value>)
    requires |s| > 0 && Sorted(orders, getRid, s)
    ensures Sorted(orders, getRid, s[1..])
    ensures forall k :: 0 <= k < |s| - 1 ==> RowCmp(orders, getRid, s[0], s[1..][k]) <= 0
  {
    var t := s[1..];
    forall i, j | 0 <= i < j < |t| ensures RowCmp(orders, getRid, t[i], t[j]) <= 0 {
      assert t[i] == s[i + 1] && t[j] == s[j + 1];
    }
  }

  /** A bound on every element of `s` and on `x` bounds every element of a
      permutation of `s` plus `x`. */
  lemma BoundPermutation(orders: seq<Order>, getRid: Value -> Value, h: Value, s: seq<Value>, x: Value, t: seq<Value>)
    requires forall k :: 0 <= k < |s| ==> RowCmp(orders, getRid, h, s[k]) <= 0
    requires RowCmp(orders, getRid, h, x) <= 0
    requires multiset(t) == multiset(s) + multiset{x}
    ensures forall k :: 0 <= k < |t| ==> RowCmp(orders, getRid, h, t[k]) <= 0
  {
    forall k | 0 <= k < |t| ensures RowCmp(orders, getRid, h, t[k]) <= 0 {
      assert t[k] in multiset(t);
      if t[k] != x {
        assert t[k] in multiset(s);
        var m :| 0 <= m < |s| && s[m] == t[k];
      }
    }
  }

  lemma {:induction false} InsertSorted(orders: seq<Order>, getRid: Value -> Value, x: Value, s: seq<Value>)
    requires AllOrderable(orders, getRid, s) && OrderableRow(orders, getRid, x)
    requires Sorted(orders, getRid, s)
    ensures Sorted(orders, getRid, Insert(orders, getRid, x, s))
  {
    if |s| == 0 {
    } else if RowCmp(orders, getRid, x, s[0]) < 0 {
      forall k | 0 <= k < |s| ensures RowCmp(orders, getRid, x, s[k]) <= 0 {
        if k > 0 {
          RowCmpTransitive(orders, getRid, x, s[0], s[k]);
        }
      }
      SortedCons(orders, getRid, x, s);
    } else {
      var tail := s[1..];
      SortedTail(orders, getRid, s);
      assert AllOrderable(orders, getRid, tail) by {
        forall k | 0 <= k < |tail| ensures OrderableRow(orders, getRid, tail[k]) {
          assert tail[k] == s[k + 1];
        }
      }
      InsertSorted(orders, getRid, x, tail);
      var ins := Insert(orders, getRid, x, tail);
      RowCmpAntisymmetric(orders, getRid, x, s[0]);
      BoundPermutation(orders, getRid, s[0], tail, x, ins);
      SortedCons(orders, getRid, s[0], ins);
    }
  }

  lemma {:induction false} InsertionSortSorted(orders: seq<Order>, getRid: Value -> Value, s: seq<Value>)
    requires AllOrderable(orders, getRid, s)
    ensures Sorted(orders, getRid, InsertionSort(orders, getRid, s))
  {
    if |s| > 0 {
      var prefix := s[..|s| - 1];
      InsertionSortSorted(orders, getRid, prefix);
      var sorted := InsertionSort(orders, getRid, prefix);
      forall k | 0 <= k < |sorted| ensures OrderableRow(orders, getRid, sorted[k]) {
        assert sorted[k] in multiset(prefix);
        var m :| 0 <= m < |prefix| && prefix[m] == sorted[k];
        assert s[m] == sorted[k];
      }
      InsertSorted(orders, getRid, s[|s| - 1], sorted);
    }
  }

  // ---------------------------------------------------------------------
  // Single-key filter.

  /** The rows whose value under `keys` is not `undefined`, in order. */
  function KeepDefined(rows: seq<Value>, keys: seq<string>): (r: seq<Value>)
    ensures forall i :: 0 <= i < |r| ==> GetValue(r[i], keys) != Undefined
    ensures forall x :: multiset(r)[x] == if GetValue(x, keys) != Undefined then multiset(rows)[x] else 0
  {
    if |rows| == 0 then []
    else
      assert rows == [rows[0]] + rows[1..];
      (if GetValue(rows[0], keys) != Undefined then [rows[0]] else []) + KeepDefined(rows[1..], keys)
  }

  lemma KeepDefinedPermutation(a: seq<Value>, b: seq<Value>, keys: seq<string>)
    requires multiset(a) == multiset(b)
    ensures multiset(KeepDefined(a, keys)) == multiset(KeepDefined(b, keys))
  {
    var ma, mb := multiset(KeepDefined(a, keys)), multiset(KeepDefined(b, keys));
    assert forall x :: ma[x] == mb[x];
  }

  /** Dropping rows from a sorted list leaves it sorted. */
  lemma {:induction false} KeepDefinedSorted(orders: seq<Order>, getRid: Value -> Value, rows: seq<Value>, keys: seq<string>)
    ensures Sorted(orders, getRid, rows) ==> Sorted(orders, getRid, KeepDefined(rows, keys))
  {
    if |rows| > 0 && Sorted(orders, getRid, rows) {
      var tail := rows[1..];
      SortedTail(orders, getRid, rows);
      KeepDefinedSorted(orders, getRid, tail, keys);
      var kept := KeepDefined(tail, keys);
      if GetValue(rows[0], keys) != Undefined {
        forall k | 0 <= k < |kept| ensures RowCmp(orders, getRid, rows[0], kept[k]) <= 0 {
          assert kept[k] in multiset(kept);
          assert kept[k] in multiset(tail);
          var m :| 0 <= m < |tail| && tail[m] == kept[k];
        }
        SortedCons(orders, getRid, rows[0], kept);
      }
    }
  }

  // ---------------------------------------------------------------------
  // Composite-index validation.

  /** The index path an ORDER BY item needs: its path without the alias,
      slash-separated and rooted. */
  function IndexPath(keys: seq<string>): string {
    "/" + Join(if |keys| == 0 then [] else keys[1..], "/")
  }

  function DirectionName(desc: bool): string {
    if desc then "descending" else "ascending"
  }

  /** A declared index serves the ORDER BY when it lists the same items, path
      and direction, in the same order. */
  predicate Serves(index: seq<CompositeIndex>, orders: seq<Order>) {
    |index| == |orders|
    && forall i :: 0 <= i < |index| ==>
         index[i].path == IndexPath(orders[i].keys) && index[i].order == DirectionName(orders[i].desc)
  }

  predicate HasServingIndex(indexes: seq<seq<CompositeIndex>>, orders: seq<Order>) {
    exists k :: 0 <= k < |indexes| && Serves(indexes[k], orders)
  }

  /** The index a multi-key ORDER BY would need declared. */
  function IndexFor(orders: seq<Order>): (index: seq<CompositeIndex>)
    ensures Serves(index, orders)
  {
    seq(|orders|, i requires 0 <= i < |orders| =>
      CompositeIndex(IndexPath(orders[i].keys), DirectionName(orders[i].desc)))
  }

  // ---------------------------------------------------------------------
  // sort

  /** `sort`. With more than one ORDER BY item and a declared index list it
      fails unless some index serves the ORDER BY; it then sorts by the items
      and the row identifier; with exactly one item it drops the rows whose
      value is `undefined`. */
  function Sort(collection: seq<Value>, getRid: Value -> Value,
                compositeIndexes: Option<seq<seq<CompositeIndex>>>, orders: seq<Order>): (r: Result<seq<Value>>)
    ensures r.Failure? <==>
              |orders| > 1 && compositeIndexes.Some? && !HasServingIndex(compositeIndexes.value, orders)
    ensures r.Failure? ==> r.error == MissingCompositeIndex
    ensures r.Success? && |orders| != 1 ==> multiset(r.value) == multiset(collection)
    ensures r.Success? && |orders| == 1 ==>
              multiset(r.value) == multiset(KeepDefined(collection, orders[0].keys))
    ensures r.Success? && AllOrderable(orders, getRid, collection) ==> Sorted(orders, getRid, r.value)
  {
    if |orders| > 1 && compositeIndexes.Some? && !HasServingIndex(compositeIndexes.value, orders) then
      Failure(MissingCompositeIndex)
    else
      var sorted := InsertionSort(orders, getRid, collection);
      SortedWhenOrderable(orders, getRid, collection);
      if |orders| != 1 then Success(sorted)
      else
        var keys := orders[0].keys;
        KeepDefinedPermutation(sorted, collection, keys);
        KeepDefinedSorted(orders, getRid, sorted, keys);
        Success(KeepDefined(sorted, keys))
  }

  lemma SortedWhenOrderable(orders: seq<Order>, getRid: Value -> Value, s: seq<Value>)
    ensures AllOrderable(orders, getRid, s) ==> Sorted(orders, getRid, InsertionSort(orders, getRid, s))
  {
    if AllOrderable(orders, getRid, s) {
      InsertionSortSorted(orders, getRid, s);
    }
  }

  /** Leaving the index list out skips validation whatever the ORDER BY, and
      declaring the index the ORDER BY needs always satisfies it. */
  lemma SortIndexCheck(collection: seq<Value>, getRid: Value -> Value, orders: seq<Order>,
                       others: seq<seq<CompositeIndex>>)
    ensures Sort(collection, getRid, None, orders).Success?
    ensures Sort(collection, getRid, Some(others + [IndexFor(orders)]), orders).Success?
  {
    var indexes := others + [IndexFor(orders)];
    assert Serves(indexes[|others|], orders);
  }

  /** An empty declared list never serves a multi-key ORDER BY. */
  lemma SortEmptyIndexListFails(collection: seq<Value>, getRid: Value -> Value, orders: seq<Order>)
    requires |orders| > 1
    ensures Sort(collection, getRid, Some([]), orders) == Failure(MissingCompositeIndex)
  {
  }
}

=== FILE: pagination.dfy ===
/** The pagination engine of `src/helpers.ts` (`paginate`): resuming a sorted
    scan from a continuation token, truncating to the page size and building
    the next token, including the same-identifier skip count `SRC`. */
module Pagination {
  import opened Wrappers
  import opened Values
  import opened Ordering

  /** One result row: the projected document returned to the caller, and the
      source binding from which ORDER BY values and the row identifier are
      read. */
  datatype Row = Row(projected: Value, source: Value)

  /** A decoded continuation token: the identifier of the first row not yet
      returned (`RID`), the request round (`RT`), how many rows with that
      identifier were already returned (`SRC`), the total returned so far
      (`TRC`) and that row's ORDER BY values (`RTD`). */
  datatype Token = Token(RID: Value, RT: int, SRC: int, TRC: int, RTD: Option<seq<Value>>)

  /** The continuation handed back with a page; the range is a fixed
      placeholder. */
  datatype Continuation = Continuation(token: Token, rangeMin: string, rangeMax: string)

  datatype Page = Page(result: seq<Value>, continuation: Option<Continuation>)

  /** JavaScript falsiness, as checked by `!rid` (numbers being integers, NaN
      does not arise). */
  predicate Falsy(v: Value) {
    v == Undefined || v == Null || v == Bool(false) || v == Num(0) || v == Str("")
  }

  function Sources(rows: seq<Row>): (r: seq<Value>)
    ensures |r| == |rows| && forall i :: 0 <= i < |rows| ==> r[i] == rows[i].source
  {
    seq(|rows|, i requires 0 <= i < |rows| => rows[i].source)
  }

  function Projections(rows: seq<Row>): (r: seq<Value>)
    ensures |r| == |rows| && forall i :: 0 <= i < |rows| ==> r[i] == rows[i].projected
  {
    seq(|rows|, i requires 0 <= i < |rows| => rows[i].projected)
  }

  /** What a page returns: the projections, sanitised as one array. */
  function Output(rows: seq<Row>): (r: seq<Value>)
    ensures |r| <= |rows|
  {
    StripItems(Projections(rows))
  }

  lemma {:induction false} OutputAppend(a: seq<Row>, b: seq<Row>)
    ensures Output(a + b) == Output(a) + Output(b)
  {
    assert Projections(a + b) == Projections(a) + Projections(b);
    StripItemsAppend(Projections(a), Projections(b));
  }

  /** A page holds no `undefined`, at any depth. */
  lemma OutputIsClean(rows: seq<Row>)
    ensures forall i :: 0 <= i < |Output(rows)| ==> Clean(Output(rows)[i])
  {
    StripItemsClean(Projections(rows));
  }

  /** One row contributes its sanitised projection, or nothing when the
      projection is `undefined`. */
  lemma OutputOne(r: Row)
    ensures Output([r]) == if r.projected == Undefined then [] else [StripUndefined(r.projected)]
  {
  }

  // ---------------------------------------------------------------------
  // Resume.

  /** Outcome of the `findIndex` callback on one row. */
  datatype Step = Found | Skip(src: int)

  /** The `findIndex` callback: a row strictly ahead of the token's ORDER BY
      values is the resume point and one strictly behind is skipped; on a tie
      the identifier decides, and rows carrying the token's identifier are
      skipped until `SRC` of them have been passed. `src` is the callback's
      running count of such rows. */
  function Probe(d: Value, token: Token, getRid: Value -> Value, orders: seq<Order>, src: int): (r: Result<Step>)
    ensures r.Failure? ==> r.error == RidRequiredForContinuation && Falsy(getRid(d))
    ensures r.Success? && r.value.Skip? ==> r.value.src == src || r.value.src == src + 1
    ensures var tied := token.RTD.None? || |orders| == 0 || LexCmp(orders, KeysOf(d, orders), token.RTD.value, 0) == 0;
            tied && Falsy(getRid(d)) ==> r == Failure(RidRequiredForContinuation)
  {
    var byKeys := if token.RTD.Some? && |orders| > 0 then LexCmp(orders, KeysOf(d, orders), token.RTD.value, 0) else 0;
    if byKeys < 0 then Success(Skip(src))
    else if byKeys > 0 then Success(Found)
    else
      var rid := getRid(d);
      if Falsy(rid) then Failure(RidRequiredForContinuation)
      else if Comparator(rid, token.RID) < 0 then Success(Skip(src))
      else if token.SRC == 0 || !StrictEquals(rid, token.RID) then Success(Found)
      else if src == token.SRC then Success(Found)
      else Success(Skip(src + 1))
  }

  /** `findIndex` with a callback that also threads a running count: the
      first position from `i` at which the callback answers `Found`, or `n`
      when there is none; an error the callback raises ends the search. */
  function FindIndex(n: nat, callback: (nat, int) -> Result<Step>, i: nat, src: int): (r: Result<nat>)
    requires i <= n
    ensures r.Success? ==> i <= r.value <= n
    ensures i < n && callback(i, src).Failure? ==> r == Failure(callback(i, src).error)
    ensures i < n && callback(i, src) == Success(Found) ==> r == Success(i)
    decreases n - i
  {
    if i == n then Success(n)
    else
      match callback(i, src)
      case Failure(e) => Failure(e)
      case Success(Found) => Success(i)
      case Success(Skip(next)) => FindIndex(n, callback, i + 1, next)
  }

  /** The `findIndex` callback of `paginate`, applied to the row at a
      position. */
  function Callback(rows: seq<Row>, token: Token, getRid: Value -> Value, orders: seq<Order>): (nat, int) -> Result<Step> {
    (k: nat, src: int) => if k < |rows| then Probe(rows[k].source, token, getRid, orders, src) else Success(Found)
  }

  /** The resume point of a token: `findIndex` with the callback above; no
      match resumes past the end. */
  function FindResume(rows: seq<Row>, token: Token, getRid: Value -> Value, orders: seq<Order>): (r: Result<nat>)
    ensures r.Success? ==> r.value <= |rows|
    ensures r.Failure? ==> r.error == RidRequiredForContinuation
  {
    var callback := Callback(rows, token, getRid, orders);
    assert forall k: nat, src: int :: k < |rows| && callback(k, src).Failure? ==> callback(k, src).error == RidRequiredForContinuation;
    FindIndexError(|rows|, callback, 0, 0, RidRequiredForContinuation);
    FindIndex(|rows|, callback, 0, 0)
  }

  /** The only errors `findIndex` reports are the callback's. */
  lemma {:induction false} FindIndexError(n: nat, callback: (nat, int) -> Result<Step>, i: nat, src: int, e: Error)
    requires i <= n
    requires forall k: nat, s: int :: k < n && callback(k, s).Failure? ==> callback(k, s).error == e
    ensures FindIndex(n, callback, i, src).Failure? ==> FindIndex(n, callback, i, src).error == e
    decreases n - i
  {
    if i < n && callback(i, src).Success? && callback(i, src).value.Skip? {
      FindIndexError(n, callback, i + 1, callback(i, src).value.src, e);
    }
  }

  /** A callback that skips every position from `i` up to `k` and throws at
      `k` ends the scan with its error: the row at `k` is never passed. */
  lemma {:induction false} FindIndexFails(n: nat, callback: (nat, int) -> Result<Step>, i: nat, k: nat, src: int, e: Error)
    requires i <= k < n
    requires forall j: nat, s: int :: i <= j < k ==> callback(j, s).Success? && callback(j, s).value.Skip?
    requires forall s: int :: callback(k, s) == Failure(e)
    ensures FindIndex(n, callback, i, src) == Failure(e)
    decreases k - i
  {
    if i < k {
      FindIndexFails(n, callback, i + 1, k, callback(i, src).value.src, e);
    } else {
      assert callback(i, src) == Failure(e);
    }
  }

  /** With no position answering `Found`, `findIndex` reports -1, which
      `paginate` turns into the collection's length. */
  lemma {:induction false} FindIndexExhausted(n: nat, callback: (nat, int) -> Result<Step>, i: nat, src: int)
    requires i <= n
    requires forall k: nat, s: int :: i <= k < n ==> callback(k, s).Success? && callback(k, s).value.Skip?
    ensures FindIndex(n, callback, i, src) == Success(n)
    decreases n - i
  {
    if i < n {
      FindIndexExhausted(n, callback, i + 1, callback(i, src).value.src);
    }
  }

  /** A token whose ORDER BY values lie beyond every row resumes past the end:
      the call returns no rows. */
  lemma {:induction false} FindResumePastEnd(rows: seq<Row>, token: Token, getRid: Value -> Value, orders: seq<Order>)
    requires token.RTD.Some? && |orders| > 0
    requires forall k :: 0 <= k < |rows| ==> LexCmp(orders, KeysOf(rows[k].source, orders), token.RTD.value, 0) < 0
    ensures FindResume(rows, token, getRid, orders) == Success(|rows|)
  {
    var callback := Callback(rows, token, getRid, orders);
    forall k: nat, s: int | k < |rows|
      ensures callback(k, s) == Success(Skip(s))
    {
      assert LexCmp(orders, KeysOf(rows[k].source, orders), token.RTD.value, 0) < 0;
    }
    FindIndexExhausted(|rows|, callback, 0, 0);
  }

  /** Where a call starts: at the resume point of the token, or at 0. */
  function Start(rows: seq<Row>, continuation: Option<Token>, getRid: Value -> Value, orders: seq<Order>): (r: Result<nat>)
    ensures r.Success? ==> r.value <= |rows|
    ensures continuation.None? ==> r == Success(0)
  {
    if continuation.Some? then FindResume(rows, continuation.value, getRid, orders) else Success(0)
  }

  // ---------------------------------------------------------------------
  // The same-identifier skip count.

  /** The number of consecutive rows just before position `end` whose
      identifier is `===` to `rid`. */
  function SameRidRun(rows: seq<Row>, end: nat, rid: Value, getRid: Value -> Value): (n: nat)
    requires end <= |rows|
    ensures n <= end
    ensures forall k :: end - n <= k < end ==> StrictEquals(getRid(rows[k].source), rid)
    ensures n < end ==> !StrictEquals(getRid(rows[end - n - 1].source), rid)
  {
    if end == 0 || !StrictEquals(getRid(rows[end - 1].source), rid) then 0
    else 1 + SameRidRun(rows, end - 1, rid, getRid)
  }

  /** The backward scan that computes `SRC`: step back from the row before
      the boundary until a row with another identifier, or the start. */
  method CountSameRid(rows: seq<Row>, end: nat, rid: Value, getRid: Value -> Value) returns (src: nat)
    requires end <= |rows|
    ensures src == SameRidRun(rows, end, rid, getRid)
    ensures src <= end && forall k :: end - src <= k < end ==> StrictEquals(getRid(rows[k].source), rid)
  {
    var j: int := end - 1;
    while j >= 0 && StrictEquals(getRid(rows[j].source), rid)
      invariant -1 <= j < end
      invariant SameRidRun(rows, end, rid, getRid) == end - 1 - j + SameRidRun(rows, j + 1, rid, getRid)
      decreases j
    {
      j := j - 1;
    }
    src := end - j - 1;
  }

  // ---------------------------------------------------------------------
  // paginate

  predicate HasLimit(maxItemCount: Option<int>) {
    maxItemCount.Some? && maxItemCount.value > 0
  }

  /** The token `paginate` builds for the row at position `b`, the first row
      left for the next page. It names row `b`'s identifier, carries its
      ORDER BY values when there are ORDER BY items, and counts in `SRC` the
      rows just before it that are `===` to that identifier: all of them up
      to the start, or up to a row that is not. */
  function TokenAt(rows: seq<Row>, b: nat, rt: int, trc: int, getRid: Value -> Value, orders: seq<Order>): (t: Token)
    requires b < |rows|
    ensures t.RID == getRid(rows[b].source)
    ensures t.RT == rt && t.TRC == trc
    ensures |orders| > 0 ==> t.RTD == Some(KeysOf(rows[b].source, orders))
    ensures |orders| == 0 ==> t.RTD.None?
    ensures 0 <= t.SRC <= b
    ensures forall k :: b - t.SRC <= k < b ==> StrictEquals(getRid(rows[k].source), t.RID)
    ensures t.SRC < b ==> !StrictEquals(getRid(rows[b - t.SRC - 1].source), t.RID)
  {
    var item := rows[b].source;
    var rid := getRid(item);
    Token(rid, rt, SameRidRun(rows, b, rid, getRid), trc, if |orders| > 0 then Some(KeysOf(item, orders)) else None)
  }

  /** The round and running total carried over from the previous call; a
      first call starts both at zero. */
  function PrevRT(continuation: Option<Token>): int {
    if continuation.Some? then continuation.value.RT else 0
  }

  function PrevTRC(continuation: Option<Token>): int {
    if continuation.Some? then continuation.value.TRC else 0
  }

  /** The page `paginate` builds once it has resumed at `start`: at most
      `maxItemCount` rows (when it is positive) and, when rows remain, a
      token for the first of them, which must have an identifier. */
  function PageAfter(collection: seq<Row>, maxItemCount: Option<int>, continuation: Option<Token>, start: nat,
                     getRid: Value -> Value, orders: seq<Order>): (r: Result<Page>)
    requires start <= |collection|
    ensures r.Failure? ==> r.error == RidRequiredForMaxItemCount && HasLimit(maxItemCount)
    ensures r.Success? && HasLimit(maxItemCount) ==> |r.value.result| <= maxItemCount.value
    ensures r.Success? && r.value.continuation.None? ==> r.value.result == Output(collection[start..])
    ensures r.Success? && r.value.continuation.Some? ==> HasLimit(maxItemCount)
  {
    if !HasLimit(maxItemCount) || |collection| - start <= maxItemCount.value then
      Success(Page(Output(collection[start..]), None))
    else
      var m := maxItemCount.value;
      if Falsy(getRid(collection[start + m].source)) then Failure(RidRequiredForMaxItemCount)
      else
        var token := TokenAt(collection, start + m, PrevRT(continuation) + 1, PrevTRC(continuation) + m, getRid, orders);
        Success(Page(Output(collection[start..start + m]), Some(Continuation(token, "", "FF"))))
  }

  /** `paginate`: resume after the token, then build the page from there. */
  function Paginate(collection: seq<Row>, maxItemCount: Option<int>, continuation: Option<Token>,
                    getRid: Value -> Value, orders: seq<Order>): (r: Result<Page>)
    ensures Start(collection, continuation, getRid, orders).Failure? <==> r == Failure(RidRequiredForContinuation)
    ensures r.Success? && HasLimit(maxItemCount) ==> |r.value.result| <= maxItemCount.value
    ensures r.Success? && r.value.continuation.None? ==>
              r.value.result == Output(collection[Start(collection, continuation, getRid, orders).value..])
    ensures r.Success? && r.value.continuation.Some? ==> HasLimit(maxItemCount)
    ensures r.Failure? && r.error == RidRequiredForMaxItemCount ==> HasLimit(maxItemCount)
  {
    var start :- Start(collection, continuation, getRid, orders);
    PageAfter(collection, maxItemCount, continuation, start, getRid, orders)
  }

  /** Once resumed at `start`, a call returns the page built from there. */
  lemma PaginateResumes(collection: seq<Row>, maxItemCount: Option<int>, continuation: Option<Token>, start: nat,
                        getRid: Value -> Value, orders: seq<Order>)
    requires Start(collection, continuation, getRid, orders) == Success(start)
    ensures Paginate(collection, maxItemCount, continuation, getRid, orders)
            == PageAfter(collection, maxItemCount, continuation, start, getRid, orders)
  {
  }

  /** Without a positive page size every remaining row is returned and no
      continuation is produced. */
  lemma PageAfterUnlimited(collection: seq<Row>, maxItemCount: Option<int>, continuation: Option<Token>,
                           start: nat, getRid: Value -> Value, orders: seq<Order>)
    requires !HasLimit(maxItemCount) && start <= |collection|
    ensures PageAfter(collection, maxItemCount, continuation, start, getRid, orders) == Success(Page(Output(collection[start..]), None))
  {
  }

  /** With a positive page size `m`: when at most `m` rows remain they are
      all returned without a continuation. */
  lemma PageAfterLastPage(collection: seq<Row>, m: int, continuation: Option<Token>, start: nat,
                          getRid: Value -> Value, orders: seq<Order>)
    requires m > 0 && start <= |collection| && |collection| - start <= m
    ensures PageAfter(collection, Some(m), continuation, start, getRid, orders) == Success(Page(Output(collection[start..]), None))
  {
  }

  /** With a positive page size `m` and more than `m` rows remaining after
      `start`: the first row left over must have an identifier, the page is
      the next `m` rows, and the token names the row left over, counts the
      rows before it that share its identifier, advances the round by one and
      the total by `m`. */
  lemma PageAfterTruncates(collection: seq<Row>, m: int, continuation: Option<Token>, start: nat,
                           getRid: Value -> Value, orders: seq<Order>)
    requires m > 0 && start + m < |collection|
    ensures Falsy(getRid(collection[start + m].source)) ==>
              PageAfter(collection, Some(m), continuation, start, getRid, orders) == Failure(RidRequiredForMaxItemCount)
    ensures !Falsy(getRid(collection[start + m].source)) ==>
              var r := PageAfter(collection, Some(m), continuation, start, getRid, orders);
              var t := TokenAt(collection, start + m, PrevRT(continuation) + 1, PrevTRC(continuation) + m, getRid, orders);
              && r.Success?
              && r.value.result == Output(collection[start..start + m])
              && r.value.continuation == Some(Continuation(t, "", "FF"))
  {
    if Falsy(getRid(collection[start + m].source)) {
      PageAfterNoRid(collection, m, continuation, start, getRid, orders);
    } else {
      PageAfterWithRid(collection, m, continuation, start, getRid, orders);
    }
  }

  lemma PageAfterNoRid(collection: seq<Row>, m: int, continuation: Option<Token>, start: nat,
                       getRid: Value -> Value, orders: seq<Order>)
    requires m > 0 && start + m < |collection| && Falsy(getRid(collection[start + m].source))
    ensures PageAfter(collection, Some(m), continuation, start, getRid, orders) == Failure(RidRequiredForMaxItemCount)
  {
  }

  lemma PageAfterWithRid(collection: seq<Row>, m: int, continuation: Option<Token>, start: nat,
                         getRid: Value -> Value, orders: seq<Order>)
    requires m > 0 && start + m < |collection| && !Falsy(getRid(collection[start + m].source))
    ensures PageAfter(collection, Some(m), continuation, start, getRid, orders)
            == Success(Page(Output(collection[start..start + m]), Some(Continuation(
                 TokenAt(collection, start + m, PrevRT(continuation) + 1, PrevTRC(continuation) + m, getRid, orders), "", "FF"))))
  {
  }

  // ---------------------------------------------------------------------
  // Resuming at a page boundary.

  predicate ValidRid(v: Value) { v.Str? && |v.s| > 0 }

  /** The conditions under which paging is exact: the rows are sorted by the
      ORDER BY items and then the identifier; every identifier is a
      non-empty string; no ORDER BY value is an array; and neighbouring rows
      that share an identifier carry the same ORDER BY values (as they do
      when the identifier names the document the values are read from). */
  predicate ValidScan(rows: seq<Row>, getRid: Value -> Value, orders: seq<Order>) {
    && Sorted(orders, getRid, Sources(rows))
    && (forall i :: 0 <= i < |rows| ==> ValidRid(getRid(rows[i].source)))
    && (forall i :: 0 <= i < |rows| ==> OrderableKeys(orders, KeysOf(rows[i].source, orders)))
    && (forall i :: 0 < i < |rows| ==> NeighboursAgree(rows, i, getRid, orders))
  }

  /** Row `i` and the row before it, when they share an identifier, carry
      the same ORDER BY values. */
  predicate NeighboursAgree(rows: seq<Row>, i: nat, getRid: Value -> Value, orders: seq<Order>)
    requires 0 < i < |rows|
  {
    getRid(rows[i - 1].source) == getRid(rows[i].source) ==>
      KeysOf(rows[i - 1].source, orders) == KeysOf(rows[i].source, orders)
  }

  lemma {:induction false} ValidRowOrderable(rows: seq<Row>, getRid: Value -> Value, orders: seq<Order>, k: nat)
    requires ValidScan(rows, getRid, orders) && k < |rows|
    ensures OrderableRow(orders, getRid, rows[k].source)
  {
  }

  /** With the token's ORDER BY values those of row `b`, the callback's key
      comparison is the key part of the row comparison against row `b`. */
  lemma {:induction false} ProbeKeys(rows: seq<Row>, b: nat, t: Token, getRid: Value -> Value, orders: seq<Order>, d: Value)
    requires b < |rows| && t == TokenAt(rows, b, t.RT, t.TRC, getRid, orders)
    ensures (if t.RTD.Some? && |orders| > 0 then LexCmp(orders, KeysOf(d, orders), t.RTD.value, 0) else 0)
            == LexCmp(orders, KeysOf(d, orders), KeysOf(rows[b].source, orders), 0)
  {
  }

  /** Two rows in order whose identifiers differ are strictly in order, and
      so is every row at or before the first of them. */
  lemma {:induction false} StrictlyBelow(orders: seq<Order>, getRid: Value -> Value, y: Value, z: Value, x: Value)
    requires OrderableRow(orders, getRid, y) && OrderableRow(orders, getRid, z) && OrderableRow(orders, getRid, x)
    requires ValidRid(getRid(z)) && ValidRid(getRid(x)) && !StrictEquals(getRid(z), getRid(x))
    requires RowCmp(orders, getRid, y, z) <= 0 && RowCmp(orders, getRid, z, x) <= 0
    ensures RowCmp(orders, getRid, y, x) < 0
  {
    assert Comparator(getRid(z), getRid(x)) != 0;
    assert RowCmp(orders, getRid, z, x) < 0;
    RowCmpTransitive(orders, getRid, y, z, x);
  }

  /** A row before the run of rows sharing row `b`'s identifier compares
      strictly below row `b`. */
  lemma {:induction false} BeforeRunIsBelow(rows: seq<Row>, b: nat, k: nat, getRid: Value -> Value, orders: seq<Order>)
    requires ValidScan(rows, getRid, orders) && b < |rows|
    requires k < b - SameRidRun(rows, b, getRid(rows[b].source), getRid)
    ensures RowCmp(orders, getRid, rows[k].source, rows[b].source) < 0
  {
    var srcs := Sources(rows);
    var l := b - SameRidRun(rows, b, getRid(rows[b].source), getRid);
    // Row l - 1 is the last row before the run; its identifier differs.
    assert OrderableRow(orders, getRid, srcs[k]) && OrderableRow(orders, getRid, srcs[l - 1]) && OrderableRow(orders, getRid, srcs[b]) by {
      ValidRowOrderable(rows, getRid, orders, k);
      ValidRowOrderable(rows, getRid, orders, l - 1);
      ValidRowOrderable(rows, getRid, orders, b);
    }
    assert ValidRid(getRid(srcs[l - 1])) && ValidRid(getRid(srcs[b])) && !StrictEquals(getRid(srcs[l - 1]), getRid(srcs[b]));
    SortedBelowBoundary(orders, getRid, srcs, k, l - 1, b);
  }

  /** In a sorted sequence, when the rows at `j` and `b` have different
      identifiers, every row up to `j` is strictly below row `b`. */
  lemma SortedBelowBoundary(orders: seq<Order>, getRid: Value -> Value, srcs: seq<Value>, k: nat, j: nat, b: nat)
    requires Sorted(orders, getRid, srcs) && k <= j < b < |srcs|
    requires OrderableRow(orders, getRid, srcs[k]) && OrderableRow(orders, getRid, srcs[j]) && OrderableRow(orders, getRid, srcs[b])
    requires ValidRid(getRid(srcs[j])) && ValidRid(getRid(srcs[b])) && !StrictEquals(getRid(srcs[j]), getRid(srcs[b]))
    ensures RowCmp(orders, getRid, srcs[k], srcs[b]) < 0
  {
    assert RowCmp(orders, getRid, srcs[j], srcs[b]) <= 0;
    if k < j {
      assert RowCmp(orders, getRid, srcs[k], srcs[j]) <= 0;
    } else {
      RowCmpReflexive(orders, getRid, srcs[k]);
    }
    StrictlyBelow(orders, getRid, srcs[k], srcs[j], srcs[b]);
  }

  lemma {:induction false} ProbeBeforeRun(rows: seq<Row>, b: nat, t: Token, k: nat, getRid: Value -> Value, orders: seq<Order>)
    requires ValidScan(rows, getRid, orders) && b < |rows| && t == TokenAt(rows, b, t.RT, t.TRC, getRid, orders)
    requires k < b - t.SRC
    ensures Probe(rows[k].source, t, getRid, orders, 0) == Success(Skip(0))
  {
    BeforeRunIsBelow(rows, b, k, getRid, orders);
    ProbeKeys(rows, b, t, getRid, orders, rows[k].source);
  }

  /** Every row of the run just before row `b` carries row `b`'s ORDER BY
      values, by the neighbour condition applied along the run. */
  lemma {:induction false} RunSharesKeys(rows: seq<Row>, b: nat, k: nat, getRid: Value -> Value, orders: seq<Order>)
    requires b < |rows| && forall i :: 0 <= i < |rows| ==> ValidRid(getRid(rows[i].source))
    requires forall i :: 0 < i < |rows| ==> NeighboursAgree(rows, i, getRid, orders)
    requires b - SameRidRun(rows, b, getRid(rows[b].source), getRid) <= k <= b
    ensures KeysOf(rows[k].source, orders) == KeysOf(rows[b].source, orders)
    decreases b - k
  {
    if k < b {
      RunSharesKeys(rows, b, k + 1, getRid, orders);
      var rid := getRid(rows[b].source);
      StrictEqualsIsEquality(getRid(rows[k].source), rid);
      if k + 1 < b {
        StrictEqualsIsEquality(getRid(rows[k + 1].source), rid);
      }
      NeighbourKeys(rows, k + 1, getRid, orders);
    }
  }

  lemma NeighbourKeys(rows: seq<Row>, i: nat, getRid: Value -> Value, orders: seq<Order>)
    requires 0 < i < |rows| && forall j :: 0 < j < |rows| ==> NeighboursAgree(rows, j, getRid, orders)
    ensures getRid(rows[i - 1].source) == getRid(rows[i].source) ==>
              KeysOf(rows[i - 1].source, orders) == KeysOf(rows[i].source, orders)
  {
    assert NeighboursAgree(rows, i, getRid, orders);
  }

  lemma {:induction false} ProbeInRun(rows: seq<Row>, b: nat, t: Token, k: nat, getRid: Value -> Value, orders: seq<Order>)
    requires ValidScan(rows, getRid, orders) && b < |rows| && t == TokenAt(rows, b, t.RT, t.TRC, getRid, orders)
    requires b - t.SRC <= k < b
    ensures Probe(rows[k].source, t, getRid, orders, k - (b - t.SRC)) == Success(Skip(k - (b - t.SRC) + 1))
  {
    var x := rows[b].source;
    assert StrictEquals(getRid(rows[k].source), getRid(x));
    RunSharesKeys(rows, b, k, getRid, orders);
    ProbeKeys(rows, b, t, getRid, orders, rows[k].source);
    LexCmpReflexive(orders, KeysOf(x, orders), 0);
  }

  lemma {:induction false} ProbeAtBoundary(rows: seq<Row>, b: nat, t: Token, getRid: Value -> Value, orders: seq<Order>)
    requires ValidScan(rows, getRid, orders) && b < |rows| && t == TokenAt(rows, b, t.RT, t.TRC, getRid, orders)
    ensures Probe(rows[b].source, t, getRid, orders, t.SRC) == Success(Found)
  {
    var x := rows[b].source;
    ProbeKeys(rows, b, t, getRid, orders, x);
    LexCmpReflexive(orders, KeysOf(x, orders), 0);
  }

  /** `findIndex` over a callback that skips the first `l` positions without
      counting, skips positions `l` to `b - 1` while counting them, and stops
      at position `b`, returns `b`. */
  lemma {:induction false} FindIndexSkips(n: nat, callback: (nat, int) -> Result<Step>, l: nat, b: nat, i: nat)
    requires l <= b < n && i <= l
    requires forall k: nat :: k < l ==> callback(k, 0) == Success(Skip(0))
    requires forall k: nat, s: int :: l <= k < b && s == k - l ==> callback(k, s) == Success(Skip(s + 1))
    requires callback(b, b - l) == Success(Found)
    ensures FindIndex(n, callback, i, 0) == Success(b)
    decreases l - i
  {
    if i < l {
      assert callback(i, 0) == Success(Skip(0));
      FindIndexSkips(n, callback, l, b, i + 1);
    } else {
      FindIndexCounts(n, callback, l, b, i);
    }
  }

  /** The counting part of the scan above: from position `i` of the run,
      with `i - l` positions already counted, `findIndex` stops at `b`. */
  lemma {:induction false} FindIndexCounts(n: nat, callback: (nat, int) -> Result<Step>, l: nat, b: nat, i: nat)
    requires l <= i <= b < n
    requires forall k: nat, s: int :: l <= k < b && s == k - l ==> callback(k, s) == Success(Skip(s + 1))
    requires callback(b, b - l) == Success(Found)
    ensures FindIndex(n, callback, i, i - l) == Success(b)
    decreases b - i
  {
    if i < b {
      assert callback(i, i - l) == Success(Skip(i + 1 - l));
      FindIndexCounts(n, callback, l, b, i + 1);
    }
  }

  /** The resume lemma: the token built for the row at position `b` makes the
      next call skip exactly the rows before `b`, including the `SRC` rows
      that share its identifier, and start at `b`. */
  lemma {:induction false} ResumeAtBoundary(rows: seq<Row>, b: nat, rt: int, trc: int, getRid: Value -> Value, orders: seq<Order>)
    requires ValidScan(rows, getRid, orders) && b < |rows|
    ensures Start(rows, Some(TokenAt(rows, b, rt, trc, getRid, orders)), getRid, orders) == Success(b)
  {
    var t := TokenAt(rows, b, rt, trc, getRid, orders);
    var callback := Callback(rows, t, getRid, orders);
    var l := b - t.SRC;
    forall k: nat | k < l
      ensures callback(k, 0) == Success(Skip(0))
    {
      ProbeBeforeRun(rows, b, t, k, getRid, orders);
    }
    forall k: nat, s: int | l <= k < b && s == k - l
      ensures callback(k, s) == Success(Skip(s + 1))
    {
      ProbeInRun(rows, b, t, k, getRid, orders);
    }
    ProbeAtBoundary(rows, b, t, getRid, orders);
    FindIndexSkips(|rows|, callback, l, b, 0);
  }

  // ---------------------------------------------------------------------
  // The skip count on a merely sorted scan.
  //
  // `paginate` computes `SRC` from identifiers alone, while the resume
  // callback counts only the rows that also tie with the token's ORDER BY
  // values. When two neighbouring rows share an identifier but not their
  // ORDER BY values (a JOIN over an array of the document can produce
  // these), the two counts disagree and the next call skips a row.

  /** A row the resume callback counts against a token naming identifier
      `rid` and ORDER BY values `keys`. */
  predicate Tied(d: Value, rid: Value, keys: seq<Value>, getRid: Value -> Value, orders: seq<Order>) {
    StrictEquals(getRid(d), rid) && LexCmp(orders, KeysOf(d, orders), keys, 0) == 0
  }

  /** The number of consecutive rows just before position `end` that the
      resume callback counts: rows `===` to `rid` that tie with `keys`. */
  function TiedRun(rows: seq<Row>, end: nat, rid: Value, keys: seq<Value>, getRid: Value -> Value, orders: seq<Order>): (n: nat)
    requires end <= |rows|
    ensures n <= end
    ensures forall k :: end - n <= k < end ==> Tied(rows[k].source, rid, keys, getRid, orders)
    ensures n < end ==> !Tied(rows[end - n - 1].source, rid, keys, getRid, orders)
  {
    RunBefore(rows, end, d => Tied(d, rid, keys, getRid, orders))
  }

  /** The number of consecutive rows just before position `end` whose source
      `counted` accepts. */
  function RunBefore(rows: seq<Row>, end: nat, counted: Value -> bool): (n: nat)
    requires end <= |rows|
    ensures n <= end
    ensures forall k :: end - n <= k < end ==> counted(rows[k].source)
    ensures n < end ==> !counted(rows[end - n - 1].source)
  {
    if end == 0 || !counted(rows[end - 1].source) then 0
    else 1 + RunBefore(rows, end - 1, counted)
  }

  /** The token with the skip count the resume callback expects: as
      `TokenAt`, but `SRC` counts only the rows just before row `b` that
      share both its identifier and its ORDER BY values. */
  function TiedTokenAt(rows: seq<Row>, b: nat, rt: int, trc: int, getRid: Value -> Value, orders: seq<Order>): (t: Token)
    requires b < |rows|
    ensures t.RID == getRid(rows[b].source) && t.RT == rt && t.TRC == trc
    ensures t.RTD == if |orders| > 0 then Some(KeysOf(rows[b].source, orders)) else None
    ensures 0 <= t.SRC <= b
  {
    var x := rows[b].source;
    var rid := getRid(x);
    Token(rid, rt, TiedRun(rows, b, rid, KeysOf(x, orders), getRid, orders), trc, if |orders| > 0 then Some(KeysOf(x, orders)) else None)
  }

  /** A scan sorted by the ORDER BY items and then the identifier, with
      non-empty string identifiers and no array among the ORDER BY values:
      the conditions of `ValidScan` without the neighbour condition. */
  predicate SortedScan(rows: seq<Row>, getRid: Value -> Value, orders: seq<Order>) {
    && Sorted(orders, getRid, Sources(rows))
    && (forall i :: 0 <= i < |rows| ==> ValidRid(getRid(rows[i].source)))
    && (forall i :: 0 <= i < |rows| ==> OrderableKeys(orders, KeysOf(rows[i].source, orders)))
  }

  /** A row strictly below row `b` is skipped without being counted by a
      token naming row `b`'s identifier and ORDER BY values. */
  lemma ProbeBelow(x: Value, d: Value, t: Token, getRid: Value -> Value, orders: seq<Order>, s: int)
    requires t.RID == getRid(x) && t.RTD == (if |orders| > 0 then Some(KeysOf(x, orders)) else None)
    requires ValidRid(getRid(d)) && RowCmp(orders, getRid, d, x) < 0
    ensures Probe(d, t, getRid, orders, s) == Success(Skip(s))
  {
    if |orders| == 0 {
      assert LexCmp(orders, KeysOf(d, orders), KeysOf(x, orders), 0) == 0;
    }
  }

  /** A row before row `b` that the resume callback would not count is
      strictly below row `b`: it has another identifier, or the same one
      with lower ORDER BY values. So is every row before it. */
  lemma {:induction false} UntiedIsBelow(rows: seq<Row>, b: nat, j: nat, k: nat, getRid: Value -> Value, orders: seq<Order>)
    requires SortedScan(rows, getRid, orders) && k <= j < b < |rows|
    requires !Tied(rows[j].source, getRid(rows[b].source), KeysOf(rows[b].source, orders), getRid, orders)
    ensures RowCmp(orders, getRid, rows[k].source, rows[b].source) < 0
  {
    var srcs := Sources(rows);
    var y, z, x := srcs[k], srcs[j], srcs[b];
    assert OrderableRow(orders, getRid, y) && OrderableRow(orders, getRid, z) && OrderableRow(orders, getRid, x);
    assert RowCmp(orders, getRid, z, x) < 0 by {
      assert RowCmp(orders, getRid, z, x) <= 0;
      assert ValidRid(getRid(z)) && ValidRid(getRid(x));
      RowCmpDecides(orders, getRid, z, x);
      LexCmpFirstDifference(orders, KeysOf(z, orders), KeysOf(x, orders), 0);
    }
    if k < j {
      assert RowCmp(orders, getRid, y, z) <= 0;
      RowCmpTransitive(orders, getRid, y, z, x);
    }
  }

  lemma {:induction false} ProbeTiedBefore(rows: seq<Row>, b: nat, t: Token, k: nat, getRid: Value -> Value, orders: seq<Order>)
    requires SortedScan(rows, getRid, orders) && b < |rows| && t == TiedTokenAt(rows, b, t.RT, t.TRC, getRid, orders)
    requires k < b - t.SRC
    ensures Probe(rows[k].source, t, getRid, orders, 0) == Success(Skip(0))
  {
    UntiedIsBelow(rows, b, b - t.SRC - 1, k, getRid, orders);
    assert ValidRid(getRid(rows[k].source));
    ProbeBelow(rows[b].source, rows[k].source, t, getRid, orders, 0);
  }

  lemma {:induction false} ProbeTiedRun(rows: seq<Row>, b: nat, t: Token, k: nat, getRid: Value -> Value, orders: seq<Order>)
    requires SortedScan(rows, getRid, orders) && b < |rows| && t == TiedTokenAt(rows, b, t.RT, t.TRC, getRid, orders)
    requires b - t.SRC <= k < b
    ensures Probe(rows[k].source, t, getRid, orders, k - (b - t.SRC)) == Success(Skip(k - (b - t.SRC) + 1))
  {
    var x := rows[b].source;
    assert Tied(rows[k].source, t.RID, KeysOf(x, orders), getRid, orders);
    assert ValidRid(getRid(rows[k].source));
    assert |orders| == 0 ==> LexCmp(orders, KeysOf(rows[k].source, orders), KeysOf(x, orders), 0) == 0;
  }

  lemma {:induction false} ProbeTiedBoundary(rows: seq<Row>, b: nat, t: Token, getRid: Value -> Value, orders: seq<Order>)
    requires SortedScan(rows, getRid, orders) && b < |rows| && t == TiedTokenAt(rows, b, t.RT, t.TRC, getRid, orders)
    ensures Probe(rows[b].source, t, getRid, orders, t.SRC) == Success(Found)
  {
    var x := rows[b].source;
    LexCmpReflexive(orders, KeysOf(x, orders), 0);
    assert ValidRid(getRid(x));
  }

  /** The corrected resume lemma: on any sorted scan, the token with the
      tied skip count makes the next call start at row `b`. */
  lemma {:induction false} ResumeAtTiedBoundary(rows: seq<Row>, b: nat, rt: int, trc: int, getRid: Value -> Value, orders: seq<Order>)
    requires SortedScan(rows, getRid, orders) && b < |rows|
    ensures Start(rows, Some(TiedTokenAt(rows, b, rt, trc, getRid, orders)), getRid, orders) == Success(b)
  {
    var t := TiedTokenAt(rows, b, rt, trc, getRid, orders);
    TiedCallbackBefore(rows, b, t, getRid, orders);
    TiedCallbackRun(rows, b, t, getRid, orders);
    ProbeTiedBoundary(rows, b, t, getRid, orders);
    FindIndexSkips(|rows|, Callback(rows, t, getRid, orders), b - t.SRC, b, 0);
  }

  lemma TiedCallbackBefore(rows: seq<Row>, b: nat, t: Token, getRid: Value -> Value, orders: seq<Order>)
    requires SortedScan(rows, getRid, orders) && b < |rows| && t == TiedTokenAt(rows, b, t.RT, t.TRC, getRid, orders)
    ensures forall k: nat :: k < b - t.SRC ==> Callback(rows, t, getRid, orders)(k, 0) == Success(Skip(0))
  {
    forall k: nat | k < b - t.SRC
      ensures Callback(rows, t, getRid, orders)(k, 0) == Success(Skip(0))
    {
      ProbeTiedBefore(rows, b, t, k, getRid, orders);
    }
  }

  lemma TiedCallbackRun(rows: seq<Row>, b: nat, t: Token, getRid: Value -> Value, orders: seq<Order>)
    requires SortedScan(rows, getRid, orders) && b < |rows| && t == TiedTokenAt(rows, b, t.RT, t.TRC, getRid, orders)
    ensures forall k: nat, s: int :: b - t.SRC <= k < b && s == k - (b - t.SRC) ==>
              Callback(rows, t, getRid, orders)(k, s) == Success(Skip(s + 1))
  {
    forall k: nat, s: int | b - t.SRC <= k < b && s == k - (b - t.SRC)
      ensures Callback(rows, t, getRid, orders)(k, s) == Success(Skip(s + 1))
    {
      ProbeTiedRun(rows, b, t, k, getRid, orders);
    }
  }

  /** On a valid scan the two skip counts agree, so the token `paginate`
      builds is the corrected one. */
  lemma TiedTokenAgrees(rows: seq<Row>, b: nat, rt: int, trc: int, getRid: Value -> Value, orders: seq<Order>)
    requires ValidScan(rows, getRid, orders) && b < |rows|
    ensures TiedTokenAt(rows, b, rt, trc, getRid, orders) == TokenAt(rows, b, rt, trc, getRid, orders)
  {
    var x := rows[b].source;
    var rid, keys := getRid(x), KeysOf(x, orders);
    var l := b - SameRidRun(rows, b, rid, getRid);
    LexCmpReflexive(orders, keys, 0);
    forall k | l <= k < b
      ensures Tied(rows[k].source, rid, keys, getRid, orders)
    {
      RunSharesKeys(rows, b, k, getRid, orders);
    }
    TiedRunCountsRun(rows, l, b, rid, keys, getRid, orders);
  }

  /** When every row from `l` to `e` is counted and the row before `l` has
      another identifier, both runs ending at `e` start at `l`. */
  lemma {:induction false} TiedRunCountsRun(rows: seq<Row>, l: nat, e: nat, rid: Value, keys: seq<Value>, getRid: Value -> Value, orders: seq<Order>)
    requires l <= e <= |rows|
    requires forall k :: l <= k < e ==> Tied(rows[k].source, rid, keys, getRid, orders)
    requires l > 0 ==> !StrictEquals(getRid(rows[l - 1].source), rid)
    ensures TiedRun(rows, e, rid, keys, getRid, orders) == e - l
    ensures SameRidRun(rows, e, rid, getRid) == e - l
    decreases e
  {
    if e > l {
      assert Tied(rows[e - 1].source, rid, keys, getRid, orders);
      TiedRunCountsRun(rows, l, e - 1, rid, keys, getRid, orders);
    }
  }

  /** Three rows sorted by `k` and then `id`, where the first two share the
      identifier `a` but not their `k`: `{k: k1, id: a}`, `{k: k2, id: a}`,
      `{k: k2, id: b}` with `k1 < k2` and `a < b`. For example `k1 = 1`,
      `k2 = 2`, `a = "a"`, `b = "b"`. */
  function SplitRunRows(k1: int, k2: int, a: string, b: string): seq<Row> {
    [ RunRow(k1, a), RunRow(k2, a), RunRow(k2, b) ]
  }

  predicate SplitRunShape(k1: int, k2: int, a: string, b: string) {
    k1 < k2 && 0 < |a| && 0 < |b| && StrLess(a, b)
  }

  function RunRow(k: int, id: string): Row {
    var d := Obj([Entry("k", Num(k)), Entry("id", Str(id))]);
    Row(d, d)
  }

  function IdOf(d: Value): Value { Member(d, "id") }

  function SplitRunOrders(): seq<Order> { [Order(["k"], false)] }

  lemma RunRowReads(k: int, id: string)
    ensures IdOf(RunRow(k, id).source) == Str(id)
    ensures KeysOf(RunRow(k, id).source, SplitRunOrders()) == [Num(k)]
  {
    var es := RunRow(k, id).source.entries;
    assert es[1..] == [Entry("id", Str(id))];
    assert "k" != "id" by { assert |"k"| != |"id"|; }
    assert Lookup(es, "k") == Num(k);
    assert Lookup(es, "id") == Lookup(es[1..], "id") == Str(id);
    assert KeysOf(RunRow(k, id).source, SplitRunOrders())[0] == Num(k);
  }

  /** Row comparison on these rows: by `k`, then by identifier. */
  lemma RunRowCmp(k1: int, id1: string, k2: int, id2: string)
    requires k1 < k2 || (k1 == k2 && StrLess(id1, id2))
    ensures RowCmp(SplitRunOrders(), IdOf, RunRow(k1, id1).source, RunRow(k2, id2).source) == -1
  {
    var orders := SplitRunOrders();
    var a, b := RunRow(k1, id1).source, RunRow(k2, id2).source;
    RunRowReads(k1, id1);
    RunRowReads(k2, id2);
    StrLessIrreflexive(id1);
    assert LexCmp(orders, [Num(k1)], [Num(k2)], 1) == 0;
    assert LexCmp(orders, KeysOf(a, orders), KeysOf(b, orders), 0) == Comparator(Num(k1), Num(k2));
    if k1 == k2 {
      assert Comparator(IdOf(a), IdOf(b)) == -1;
    }
  }

  lemma SplitRunSorted(k1: int, k2: int, a: string, b: string)
    requires SplitRunShape(k1, k2, a, b)
    ensures SortedScan(SplitRunRows(k1, k2, a, b), IdOf, SplitRunOrders())
  {
    var rows, orders := SplitRunRows(k1, k2, a, b), SplitRunOrders();
    forall i | 0 <= i < |rows|
      ensures ValidRid(IdOf(rows[i].source)) && OrderableKeys(orders, KeysOf(rows[i].source, orders))
    {
      RunRowReads(if i == 0 then k1 else k2, if i == 2 then b else a);
    }
    SplitRunOrdered(k1, k2, a, b);
  }

  lemma SplitRunOrdered(k1: int, k2: int, a: string, b: string)
    requires SplitRunShape(k1, k2, a, b)
    ensures Sorted(SplitRunOrders(), IdOf, Sources(SplitRunRows(k1, k2, a, b)))
  {
    var srcs := Sources(SplitRunRows(k1, k2, a, b));
    forall i, j | 0 <= i < j < |srcs|
      ensures RowCmp(SplitRunOrders(), IdOf, srcs[i], srcs[j]) <= 0
    {
      RunRowCmp(if i == 0 then k1 else k2, a, k2, if j == 1 then a else b);
    }
  }

  /** Paging the rows above one at a time: resuming with the token the first
      call returns (`SplitRunFirstPage`) gives row 2 alone, so row 1 is never
      returned. */
  lemma SplitRunPages(k1: int, k2: int, a: string, b: string)
    requires SplitRunShape(k1, k2, a, b)
    ensures var rows, orders := SplitRunRows(k1, k2, a, b), SplitRunOrders();
      Paginate(rows, Some(1), Some(TokenAt(rows, 1, 1, 1, IdOf, orders)), IdOf, orders) == Success(Page(Output(rows[2..]), None))
  {
    ResumeSkipsSplitRun(k1, k2, a, b);
    var rows, orders := SplitRunRows(k1, k2, a, b), SplitRunOrders();
    PaginateResumes(rows, Some(1), Some(TokenAt(rows, 1, 1, 1, IdOf, orders)), 2, IdOf, orders);
  }

  /** The first call with page size 1 returns row 0 and the token for row 1. */
  lemma SplitRunFirstPage(k1: int, k2: int, a: string, b: string)
    requires SplitRunShape(k1, k2, a, b)
    ensures var rows, orders := SplitRunRows(k1, k2, a, b), SplitRunOrders();
      Paginate(rows, Some(1), None, IdOf, orders)
      == Success(Page(Output(rows[..1]), Some(Continuation(TokenAt(rows, 1, 1, 1, IdOf, orders), "", "FF"))))
  {
    var rows, orders := SplitRunRows(k1, k2, a, b), SplitRunOrders();
    RunRowReads(k2, a);
    assert rows[1] == RunRow(k2, a);
    PaginateResumes(rows, Some(1), None, 0, IdOf, orders);
    PageAfterTruncates(rows, 1, None, 0, IdOf, orders);
    assert rows[0..1] == rows[..1];
  }

  /** On the rows above, the token `paginate` builds for row 1 carries
      `SRC` 1: row 0 shares row 1's identifier. */
  lemma SplitRunToken(k1: int, k2: int, a: string, b: string)
    requires SplitRunShape(k1, k2, a, b)
    ensures TokenAt(SplitRunRows(k1, k2, a, b), 1, 1, 1, IdOf, SplitRunOrders()).SRC == 1
  {
    RunRowReads(k1, a);
    RunRowReads(k2, a);
    assert Sources(SplitRunRows(k1, k2, a, b))[0] == RunRow(k1, a).source;
  }

  /** On the rows above with ORDER BY `k`, the token `paginate` builds for
      row 1 counts row 0 in `SRC`, but the resume callback does not count
      row 0, because its `k` is lower. The next call then starts at row 2,
      past row 1; the corrected token starts it at row 1. */
  lemma ResumeSkipsSplitRun(k1: int, k2: int, a: string, b: string)
    requires SplitRunShape(k1, k2, a, b)
    ensures var rows, orders := SplitRunRows(k1, k2, a, b), SplitRunOrders();
      && Start(rows, Some(TokenAt(rows, 1, 1, 1, IdOf, orders)), IdOf, orders) == Success(2)
      && Start(rows, Some(TiedTokenAt(rows, 1, 1, 1, IdOf, orders)), IdOf, orders) == Success(1)
  {
    var rows, orders := SplitRunRows(k1, k2, a, b), SplitRunOrders();
    var srcs := Sources(rows);
    SplitRunSorted(k1, k2, a, b);
    SplitRunToken(k1, k2, a, b);
    RunRowReads(k1, a);
    RunRowReads(k2, a);
    RunRowReads(k2, b);
    assert srcs == [RunRow(k1, a).source, RunRow(k2, a).source, RunRow(k2, b).source];
    var t := TokenAt(rows, 1, 1, 1, IdOf, orders);
    var callback := Callback(rows, t, IdOf, orders);
    assert callback(0, 0) == Success(Skip(0));
    assert callback(1, 0) == Success(Skip(1));
    StrLessIrreflexive(a);
    StrLessAsymmetric(a, b);
    assert Comparator(Str(b), Str(a)) == 1;
    assert callback(2, 1) == Success(Found);
    assert FindIndex(3, callback, 0, 0) == Success(2);
    ResumeAtTiedBoundary(rows, 1, 1, 1, IdOf, orders);
  }

  /** The instance of the rows above with `k` 1 and 2 and identifiers "a"
      and "b". */
  lemma SplitRunExample()
    ensures SplitRunShape(1, 2, "a", "b")
  {
    assert StrLess("a", "b") by { assert "a"[0] < "b"[0]; }
  }

  /** The page a call with page size `m` returns when it resumes at position
      `b`, given the round and total carried over, and the token for the row
      after it. */
  function PageAt(rows: seq<Row>, m: nat, b: nat, rt: int, trc: int, getRid: Value -> Value, orders: seq<Order>): Page
    requires b <= |rows|
  {
    if |rows| - b <= m then Page(Output(rows[b..]), None)
    else Page(Output(rows[b..b + m]), Some(Continuation(TokenAt(rows, b + m, rt + 1, trc + m, getRid, orders), "", "FF")))
  }

  /** A call that resumes at position `b` returns the page `PageAt` describes,
      provided the row after the page, if any, has an identifier. */
  lemma PaginateFrom(rows: seq<Row>, m: nat, continuation: Option<Token>, b: nat,
                     getRid: Value -> Value, orders: seq<Order>)
    requires m > 0 && Start(rows, continuation, getRid, orders) == Success(b)
    requires b + m < |rows| ==> !Falsy(getRid(rows[b + m].source))
    ensures Paginate(rows, Some(m), continuation, getRid, orders)
            == Success(PageAt(rows, m, b, PrevRT(continuation), PrevTRC(continuation), getRid, orders))
  {
    PaginateResumes(rows, Some(m), continuation, b, getRid, orders);
    if |rows| - b <= m {
      PageAfterLastPage(rows, m, continuation, b, getRid, orders);
    } else {
      PageAfterTruncates(rows, m, continuation, b, getRid, orders);
    }
  }

  lemma {:induction false} PaginateFromBoundary(rows: seq<Row>, m: nat, b: nat, rt: int, trc: int, getRid: Value -> Value, orders: seq<Order>)
    requires ValidScan(rows, getRid, orders) && m > 0 && b < |rows|
    ensures Paginate(rows, Some(m), Some(TokenAt(rows, b, rt, trc, getRid, orders)), getRid, orders)
            == Success(PageAt(rows, m, b, rt, trc, getRid, orders))
  {
    var t := TokenAt(rows, b, rt, trc, getRid, orders);
    assert PrevRT(Some(t)) == rt && PrevTRC(Some(t)) == trc;
    ResumeAtBoundary(rows, b, rt, trc, getRid, orders);
    if b + m < |rows| {
      assert ValidRid(getRid(rows[b + m].source));
    }
    PaginateFrom(rows, m, Some(t), b, getRid, orders);
  }

  // ---------------------------------------------------------------------
  // A full scan in pages.

  /** `paginate` on a fixed collection, page size and ORDER BY, as a function
      of the continuation alone. */
  function Pager(rows: seq<Row>, m: int, getRid: Value -> Value, orders: seq<Order>): Option<Token> -> Result<Page> {
    c => Paginate(rows, Some(m), c, getRid, orders)
  }

  /** `pager` answers the token `tok(b, rt, trc)` for every position `b`
      below `n` with the page `out(b)` and, when more than `m` positions
      remain, the token for position `b + m` with the round advanced by one
      and the total by `m`. */
  ghost predicate PagesAtBoundaries(pager: Option<Token> -> Result<Page>, tok: (nat, int, int) -> Token,
                                    out: nat -> seq<Value>, n: nat, m: nat) {
    && (forall b: nat, rt: int, trc: int {:trigger pager(Some(tok(b, rt, trc)))} ::
          b < n <= b + m ==> pager(Some(tok(b, rt, trc))) == Success(Page(out(b), None)))
    && (forall b: nat, rt: int, trc: int {:trigger pager(Some(tok(b, rt, trc)))} ::
          b + m < n ==> pager(Some(tok(b, rt, trc))) == Success(Page(out(b), Some(Continuation(tok(b + m, rt + 1, trc + m), "", "FF")))))
  }

  /** The pages from position `b` on, every `m` positions, concatenated. */
  function Joined(out: nat -> seq<Value>, n: nat, m: nat, b: nat): seq<Value>
    requires m > 0
    decreases n - b
  {
    if n <= b + m then out(b) else out(b) + Joined(out, n, m, b + m)
  }

  /** The rows from position `b` to position `e`, or to the end when fewer
      remain, as a page returns them. */
  function Chunk(rows: seq<Row>, b: nat, e: nat): seq<Value> {
    if b <= e <= |rows| then Output(rows[b..e]) else if b <= |rows| then Output(rows[b..]) else []
  }

  /** The page of `m` rows starting at each position. */
  function Chunks(rows: seq<Row>, m: nat): nat -> seq<Value> {
    (b: nat) => Chunk(rows, b, b + m)
  }

  /** The token `paginate` builds for each position, as a function of the
      position, round and total. */
  function Tokens(rows: seq<Row>, getRid: Value -> Value, orders: seq<Order>): (nat, int, int) -> Token {
    (b: nat, rt: int, trc: int) =>
      if b < |rows| then TokenAt(rows, b, rt, trc, getRid, orders) else Token(Undefined, rt, 0, trc, None)
  }

  /** Joining pages gives back a whole when each whole splits into its
      first page and the whole `m` positions on, down to a last page. */
  lemma {:induction false} JoinedSplits(out: nat -> seq<Value>, whole: nat -> seq<Value>, n: nat, m: nat, b: nat)
    requires m > 0 && b <= n
    requires forall c: nat :: c + m < n ==> whole(c) == out(c) + whole(c + m)
    requires forall c: nat :: c <= n <= c + m ==> whole(c) == out(c)
    ensures Joined(out, n, m, b) == whole(b)
    decreases n - b
  {
    if b + m < n {
      JoinedSplits(out, whole, n, m, b + m);
    }
  }

  /** The rows from each position on, as a page returns them. */
  function Suffixes(rows: seq<Row>): nat -> seq<Value> {
    (b: nat) => Chunk(rows, b, |rows|)
  }

  lemma SuffixAt(rows: seq<Row>, b: nat)
    requires b <= |rows|
    ensures Suffixes(rows)(b) == Output(rows[b..])
  {
    assert Suffixes(rows)(b) == Chunk(rows, b, |rows|);
    assert rows[b..|rows|] == rows[b..];
  }

  /** The rows from `c` on are the page at `c` followed by the rows from
      `c + m` on. */
  lemma SuffixSplits(rows: seq<Row>, m: nat, c: nat)
    requires c + m < |rows|
    ensures Suffixes(rows)(c) == Chunks(rows, m)(c) + Suffixes(rows)(c + m)
  {
    SuffixAt(rows, c);
    SuffixAt(rows, c + m);
    ChunkAt(rows, m, c);
    assert rows[c..] == rows[c..c + m] + rows[c + m..];
    OutputAppend(rows[c..c + m], rows[c + m..]);
  }

  /** Joining the pages of every `m` rows gives back the rows from `b` on. */
  lemma JoinedChunks(rows: seq<Row>, m: nat, b: nat)
    requires m > 0 && b <= |rows|
    ensures Joined(Chunks(rows, m), |rows|, m, b) == Output(rows[b..])
  {
    var out, whole := Chunks(rows, m), Suffixes(rows);
    forall c: nat | c + m < |rows|
      ensures whole(c) == out(c) + whole(c + m)
    {
      SuffixSplits(rows, m, c);
    }
    forall c: nat | c <= |rows| <= c + m
      ensures whole(c) == out(c)
    {
      SuffixAt(rows, c);
      ChunkAt(rows, m, c);
    }
    JoinedSplits(out, whole, |rows|, m, b);
    SuffixAt(rows, b);
  }

  lemma ChunkAt(rows: seq<Row>, m: nat, b: nat)
    requires b <= |rows|
    ensures b + m <= |rows| ==> Chunks(rows, m)(b) == Output(rows[b..b + m])
    ensures |rows| <= b + m ==> Chunks(rows, m)(b) == Output(rows[b..])
  {
    assert Chunks(rows, m)(b) == Chunk(rows, b, b + m);
    if b + m == |rows| {
      assert rows[b..b + m] == rows[b..];
    }
  }

  lemma TokenOf(rows: seq<Row>, b: nat, rt: int, trc: int, getRid: Value -> Value, orders: seq<Order>)
    requires b < |rows|
    ensures Tokens(rows, getRid, orders)(b, rt, trc) == TokenAt(rows, b, rt, trc, getRid, orders)
  {
  }

  /** When at most `m` rows remain from `b`, the page `PageAt` describes is
      the chunk at `b`, with no token. */
  lemma PageAtLast(rows: seq<Row>, m: nat, b: nat, rt: int, trc: int, getRid: Value -> Value, orders: seq<Order>)
    requires b < |rows| <= b + m
    ensures PageAt(rows, m, b, rt, trc, getRid, orders) == Page(Chunks(rows, m)(b), None)
  {
    ChunkAt(rows, m, b);
  }

  /** When more than `m` rows remain from `b`, the page `PageAt` describes is
      the chunk of `m` rows at `b`, followed by the token for position
      `b + m`. */
  lemma PageAtNext(rows: seq<Row>, m: nat, b: nat, rt: int, trc: int, getRid: Value -> Value, orders: seq<Order>)
    requires b + m < |rows|
    ensures PageAt(rows, m, b, rt, trc, getRid, orders)
            == Page(Chunks(rows, m)(b), Some(Continuation(Tokens(rows, getRid, orders)(b + m, rt + 1, trc + m), "", "FF")))
  {
    PageAtTruncates(rows, m, b, rt, trc, getRid, orders);
    ChunkAt(rows, m, b);
    TokenOf(rows, b + m, rt + 1, trc + m, getRid, orders);
  }

  lemma PageAtTruncates(rows: seq<Row>, m: nat, b: nat, rt: int, trc: int, getRid: Value -> Value, orders: seq<Order>)
    requires b + m < |rows|
    ensures PageAt(rows, m, b, rt, trc, getRid, orders)
            == Page(Output(rows[b..b + m]), Some(Continuation(TokenAt(rows, b + m, rt + 1, trc + m, getRid, orders), "", "FF")))
  {
  }

  /** Over a valid scan, `paginate` answers the token for position `b` with
      the page of rows from `b` and, when rows remain, the token after it. */
  lemma PagerAt(rows: seq<Row>, m: nat, getRid: Value -> Value, orders: seq<Order>, b: nat, rt: int, trc: int)
    requires ValidScan(rows, getRid, orders) && m > 0 && b < |rows|
    ensures |rows| <= b + m ==>
              Pager(rows, m, getRid, orders)(Some(Tokens(rows, getRid, orders)(b, rt, trc)))
              == Success(Page(Chunks(rows, m)(b), None))
    ensures b + m < |rows| ==>
              Pager(rows, m, getRid, orders)(Some(Tokens(rows, getRid, orders)(b, rt, trc)))
              == Success(Page(Chunks(rows, m)(b), Some(Continuation(Tokens(rows, getRid, orders)(b + m, rt + 1, trc + m), "", "FF"))))
  {
    assert Tokens(rows, getRid, orders)(b, rt, trc) == TokenAt(rows, b, rt, trc, getRid, orders);
    if |rows| <= b + m {
      PageAtLast(rows, m, b, rt, trc, getRid, orders);
    } else {
      PageAtNext(rows, m, b, rt, trc, getRid, orders);
    }
    PaginateFromBoundary(rows, m, b, rt, trc, getRid, orders);
  }

  /** Over a valid scan, `paginate` answers every boundary token with the
      next page and the token after it. */
  lemma {:induction false} PagerAtBoundaries(rows: seq<Row>, m: nat, getRid: Value -> Value, orders: seq<Order>)
    requires ValidScan(rows, getRid, orders) && m > 0
    ensures PagesAtBoundaries(Pager(rows, m, getRid, orders), Tokens(rows, getRid, orders), Chunks(rows, m), |rows|, m)
  {
    var pager, tok, out := Pager(rows, m, getRid, orders), Tokens(rows, getRid, orders), Chunks(rows, m);
    forall b: nat, rt: int, trc: int | b < |rows| <= b + m
      ensures pager(Some(tok(b, rt, trc))) == Success(Page(out(b), None))
    {
      PagerAt(rows, m, getRid, orders, b, rt, trc);
    }
    forall b: nat, rt: int, trc: int | b + m < |rows|
      ensures pager(Some(tok(b, rt, trc))) == Success(Page(out(b), Some(Continuation(tok(b + m, rt + 1, trc + m), "", "FF"))))
    {
      PagerAt(rows, m, getRid, orders, b, rt, trc);
    }
  }

  /** The first call, without a continuation, returns the first page and
      the token for the row after it. */
  lemma {:induction false} PagerFirst(rows: seq<Row>, m: nat, getRid: Value -> Value, orders: seq<Order>)
    requires ValidScan(rows, getRid, orders) && m > 0
    ensures |rows| <= m ==> Pager(rows, m, getRid, orders)(None) == Success(Page(Output(rows), None))
    ensures m < |rows| ==>
              Pager(rows, m, getRid, orders)(None)
              == Success(Page(Chunks(rows, m)(0), Some(Continuation(Tokens(rows, getRid, orders)(m, 1, m), "", "FF"))))
  {
    PagerFirstAt(rows, m, getRid, orders);
    if m < |rows| {
      PageAtFirst(rows, m, getRid, orders);
    } else {
      assert rows[0..] == rows;
    }
  }

  lemma PageAtFirst(rows: seq<Row>, m: nat, getRid: Value -> Value, orders: seq<Order>)
    requires m < |rows|
    ensures PageAt(rows, m, 0, 0, 0, getRid, orders)
            == Page(Chunks(rows, m)(0), Some(Continuation(Tokens(rows, getRid, orders)(m, 1, m), "", "FF")))
  {
    assert Chunks(rows, m)(0) == Chunk(rows, 0, 0 + m) == Output(rows[0..m]);
    assert Tokens(rows, getRid, orders)(m, 1, m) == TokenAt(rows, m, 1, m, getRid, orders);
  }

  lemma PagerFirstAt(rows: seq<Row>, m: nat, getRid: Value -> Value, orders: seq<Order>)
    requires ValidScan(rows, getRid, orders) && m > 0
    ensures Pager(rows, m, getRid, orders)(None) == Success(PageAt(rows, m, 0, 0, 0, getRid, orders))
  {
    assert m < |rows| ==> ValidRid(getRid(rows[m].source));
    PaginateFrom(rows, m, None, 0, getRid, orders);
  }

  /** A caller that starts without a continuation, feeds each continuation
      back to `pager` and concatenates the pages until none is returned. When
      `pager` answers as `PagesAtBoundaries` describes, the caller receives
      the pages from position 0 on, every `m` positions. */
  method Collect(pager: Option<Token> -> Result<Page>, tok: (nat, int, int) -> Token,
                 out: nat -> seq<Value>, n: nat, m: nat) returns (all: seq<Value>)
    requires PagesAtBoundaries(pager, tok, out, n, m) && m > 0
    requires n <= m ==> pager(None) == Success(Page(out(0), None))
    requires m < n ==> pager(None) == Success(Page(out(0), Some(Continuation(tok(m, 1, m), "", "FF"))))
    ensures all == Joined(out, n, m, 0)
  {
    var page := pager(None).value;
    all := page.result;
    // The current page starts at `b`; its token, if any, carries round `rt`
    // and total `trc`.
    ghost var b, rt, trc := 0, 1, m;
    while page.continuation.Some?
      invariant page.continuation.Some? ==>
                  b + m < n && page.continuation == Some(Continuation(tok(b + m, rt, trc), "", "FF"))
                  && Joined(out, n, m, 0) == all + Joined(out, n, m, b + m)
      invariant page.continuation.None? ==> all == Joined(out, n, m, 0)
      decreases n - b
    {
      var t := page.continuation.value.token;
      page := pager(Some(t)).value;
      all := all + page.result;
      b, rt, trc := b + m, rt + 1, trc + m;
    }
  }

  /** The full-scan property: a caller paging through a valid scan with any
      positive page size receives exactly what one call without a page size
      returns, every row once and in order. */
  method PageThrough(rows: seq<Row>, m: nat, getRid: Value -> Value, orders: seq<Order>) returns (out: seq<Value>)
    requires ValidScan(rows, getRid, orders) && m > 0
    ensures out == Output(rows)
    ensures Paginate(rows, None, None, getRid, orders) == Success(Page(out, None))
  {
    PaginateResumes(rows, None, None, 0, getRid, orders);
    PageAfterUnlimited(rows, None, None, 0, getRid, orders);
    PagerFirst(rows, m, getRid, orders);
    PagerAtBoundaries(rows, m, getRid, orders);
    JoinedChunks(rows, m, 0);
    ChunkAt(rows, m, 0);
    assert rows[0..] == rows;
    out := Collect(Pager(rows, m, getRid, orders), Tokens(rows, getRid, orders), Chunks(rows, m), |rows|, m);
  }
}

=== FILE: values.dfy ===
/** The value-semantics engine of `src/helpers.ts`: the seven-kind taxonomy of
    query values, JavaScript strict equality and `<` on them, the engine's
    deep equality, the total-order comparator used for ORDER BY, path lookup
    and output sanitisation. */
module Values {
  import opened Wrappers

  /** A JSON-like query value. `Undefined` is a missing field, distinct from
      `Null`. Numbers are integers (IEEE-754 doubles are not modelled). An
      object is its list of own enumerable properties in property order. */
  datatype Value =
    | Undefined
    | Null
    | Bool(b: bool)
    | Num(n: int)
    | Str(s: string)
    | Arr(items: seq<Value>)
    | Obj(entries: seq<Entry>)

  datatype Entry = Entry(key: string, val: Value)

  /** The seven kinds, listed in the order of `TYPE_ORDERS`. */
  datatype Kind = KUndefined | KNull | KBoolean | KNumber | KString | KArray | KObject

  /** `typeOf`: `typeof`, refined so that `null` and arrays get kinds of their
      own: two values share a kind exactly when they are built the same way. */
  function TypeOf(v: Value): (r: Kind)
    ensures r == KNull <==> v == Null
    ensures r == KArray <==> v.Arr?
    ensures r == KObject <==> v.Obj?
    ensures r == KUndefined <==> v == Undefined
    ensures r == KBoolean <==> v.Bool?
    ensures r == KNumber <==> v.Num?
    ensures r == KString <==> v.Str?
  {
    match v
    case Undefined => KUndefined
    case Null => KNull
    case Bool(_) => KBoolean
    case Num(_) => KNumber
    case Str(_) => KString
    case Arr(_) => KArray
    case Obj(_) => KObject
  }

  /** Position of a kind in `TYPE_ORDERS`. */
  function Rank(k: Kind): nat {
    match k
    case KUndefined => 0
    case KNull => 1
    case KBoolean => 2
    case KNumber => 3
    case KString => 4
    case KArray => 5
    case KObject => 6
  }

  /** `equalTypes`: same kind, and that kind is not `undefined`. */
  predicate EqualTypes(a: Value, b: Value)
    ensures EqualTypes(a, b) <==>
      || (a == Null && b == Null)
      || (a.Bool? && b.Bool?)
      || (a.Num? && b.Num?)
      || (a.Str? && b.Str?)
      || (a.Arr? && b.Arr?)
      || (a.Obj? && b.Obj?)
  {
    TypeOf(a) == TypeOf(b) && TypeOf(a) != KUndefined
  }

  /** JavaScript `===`. Primitives compare by value. Two arrays or objects are
      identical only when they are the same reference; the model has no
      references, so it treats every two composite operands as distinct. */
  predicate StrictEquals(a: Value, b: Value) {
    match a
    case Undefined => b.Undefined?
    case Null => b.Null?
    case Bool(x) => b.Bool? && b.b == x
    case Num(x) => b.Num? && b.n == x
    case Str(x) => b.Str? && b.s == x
    case _ => false
  }

  /** True when the value is a primitive: `===` is value equality on these. */
  predicate IsPrimitive(v: Value) {
    !v.Arr? && !v.Obj?
  }

  lemma StrictEqualsIsEquality(a: Value, b: Value)
    ensures StrictEquals(a, b) <==> IsPrimitive(a) && a == b
  {
  }

  // ---------------------------------------------------------------------
  // Strings: JavaScript `<` on strings is lexicographic on code units.

  /** `x < y` on two strings. */
  predicate StrLess(x: string, y: string)
    decreases |x|
  {
    if |x| == 0 then |y| > 0
    else if |y| == 0 then false
    else if x[0] != y[0] then x[0] < y[0]
    else StrLess(x[1..], y[1..])
  }

  lemma {:induction false} StrLessIrreflexive(x: string)
    ensures !StrLess(x, x)
    decreases |x|
  {
    if |x| > 0 {
      StrLessIrreflexive(x[1..]);
    }
  }

  lemma {:induction false} StrLessAsymmetric(x: string, y: string)
    ensures StrLess(x, y) ==> !StrLess(y, x)
    decreases |x|
  {
    if |x| > 0 && |y| > 0 && x[0] == y[0] {
      StrLessAsymmetric(x[1..], y[1..]);
    }
  }

  lemma {:induction false} StrLessTotal(x: string, y: string)
    ensures x == y || StrLess(x, y) || StrLess(y, x)
    decreases |x|
  {
    if |x| > 0 && |y| > 0 && x[0] == y[0] {
      StrLessTotal(x[1..], y[1..]);
      if x[1..] == y[1..] {
        assert x == [x[0]] + x[1..] && y == [y[0]] + y[1..];
      }
    }
  }

  lemma {:induction false} StrLessTransitive(x: string, y: string, z: string)
    requires StrLess(x, y) && StrLess(y, z)
    ensures StrLess(x, z)
    decreases |x|
  {
    if |x| > 0 && x[0] == y[0] && y[0] == z[0] {
      StrLessTransitive(x[1..], y[1..], z[1..]);
    }
  }

  /** `x` is a proper prefix of `y`. */
  predicate ProperPrefix(x: string, y: string) {
    |x| < |y| && x == y[..|x|]
  }

  /** `x` and `y` agree before position `k` and `x` has the lower code unit
      at `k`. */
  predicate FirstLowerAt(x: string, y: string, k: nat) {
    k < |x| && k < |y| && x[..k] == y[..k] && x[k] < y[k]
  }

  /** String `<` is the code-unit order of the first difference: a proper
      prefix is less, and otherwise the first differing code unit decides. */
  lemma {:induction false} StrLessFirstDifference(x: string, y: string)
    ensures StrLess(x, y) <==> ProperPrefix(x, y) || exists k: nat :: FirstLowerAt(x, y, k)
    decreases |x|
  {
    if |x| == 0 {
      if |y| > 0 {
        assert ProperPrefix(x, y);
      }
    } else if |y| == 0 {
    } else if x[0] != y[0] {
      if x[0] < y[0] {
        assert FirstLowerAt(x, y, 0);
      }
      forall k: nat | FirstLowerAt(x, y, k)
        ensures x[0] < y[0]
      {
        if k > 0 {
          assert x[..k][0] == y[..k][0];
        }
      }
    } else {
      StrLessFirstDifference(x[1..], y[1..]);
      FirstDifferenceTail(x, y);
    }
  }

  /** Dropping an equal first code unit keeps both halves of the
      first-difference description. */
  lemma FirstDifferenceTail(x: string, y: string)
    requires 0 < |x| && 0 < |y| && x[0] == y[0]
    ensures ProperPrefix(x, y) <==> ProperPrefix(x[1..], y[1..])
    ensures (exists k: nat :: FirstLowerAt(x, y, k)) <==> (exists k: nat :: FirstLowerAt(x[1..], y[1..], k))
  {
    var x', y' := x[1..], y[1..];
    assert x == [x[0]] + x' && y == [y[0]] + y';
    if |x| < |y| {
      assert y[..|x|] == [y[0]] + y'[..|x'|];
    }
    forall k: nat | FirstLowerAt(x', y', k)
      ensures FirstLowerAt(x, y, k + 1)
    {
      assert x[..k + 1] == [x[0]] + x'[..k];
      assert y[..k + 1] == [y[0]] + y'[..k];
    }
    forall k: nat | FirstLowerAt(x, y, k)
      ensures k > 0 && FirstLowerAt(x', y', k - 1)
    {
      assert x[..k] == [x[0]] + x'[..k - 1];
      assert y[..k] == [y[0]] + y'[..k - 1];
    }
  }


  // ---------------------------------------------------------------------
  // String coercion, needed for `<` on two arrays (`Array.prototype.join`).

  function DigitChar(d: nat): char
    requires d < 10
  {
    "0123456789"[d]
  }

  function NatToString(n: nat): string
    decreases n
  {
    if n < 10 then [DigitChar(n)] else NatToString(n / 10) + [DigitChar(n % 10)]
  }

  /** `String(n)` for an integer-valued number in plain decimal notation. */
  function IntToString(n: int): string {
    if n < 0 then "-" + NatToString(-n) else NatToString(n)
  }

  /** `parts.join(sep)`. */
  function Join(parts: seq<string>, sep: string): string {
    if |parts| == 0 then ""
    else if |parts| == 1 then parts[0]
    else parts[0] + sep + Join(parts[1..], sep)
  }

  /** How an element is rendered by `Array.prototype.join`, which is also how
      an array is coerced to a string by `<`. */
  function JoinString(v: Value): string {
    match v
    case Undefined => ""
    case Null => ""
    case Bool(b) => if b then "true" else "false"
    case Num(n) => IntToString(n)
    case Str(s) => s
    case Arr(items) =>
      Join(seq(|items|, i requires 0 <= i < |items| => JoinString(items[i])), ",")
    case Obj(_) => "[object Object]"
  }

  /** JavaScript `a < b` for two operands of the same kind. `null < null`,
      `undefined < undefined` and `{} < {}` are all false. It is a strict
      order, total on the primitives of one kind. */
  predicate JsLess(a: Value, b: Value)
    ensures JsLess(a, b) ==> TypeOf(a) == TypeOf(b) && a != Undefined && a != Null && !a.Obj?
  {
    match a
    case Bool(x) => b.Bool? && !x && b.b
    case Num(x) => b.Num? && x < b.n
    case Str(x) => b.Str? && StrLess(x, b.s)
    case Arr(_) => b.Arr? && StrLess(JoinString(a), JoinString(b))
    case _ => false
  }

  /** The string `<` compares for a string or an array operand. */
  function LessKey(v: Value): string {
    if v.Str? then v.s else if v.Arr? then JoinString(v) else ""
  }

  /** `<` is a strict order on the operands of one kind, total on the
      primitives: of two different numbers, strings or booleans one is less. */
  lemma JsLessStrict(a: Value, b: Value)
    ensures !JsLess(a, a)
    ensures JsLess(a, b) ==> !JsLess(b, a)
    ensures IsPrimitive(a) && TypeOf(a) == TypeOf(b) && a != b ==> JsLess(a, b) || JsLess(b, a)
  {
    var x, y := LessKey(a), LessKey(b);
    StrLessIrreflexive(x);
    StrLessAsymmetric(x, y);
    StrLessTotal(x, y);
  }

  // ---------------------------------------------------------------------
  // Property access.

  /** The value of property `k`: the first entry with that key, or `undefined`. */
  function Lookup(entries: seq<Entry>, k: string): (r: Value)
    ensures (forall i :: 0 <= i < |entries| ==> entries[i].key != k) ==> r == Undefined
  {
    if |entries| == 0 then Undefined
    else if entries[0].key == k then entries[0].val
    else Lookup(entries[1..], k)
  }

  predicate IsDigit(c: char) { '0' <= c <= '9' }

  function DigitsValue(s: string): nat
    requires forall i :: 0 <= i < |s| ==> IsDigit(s[i])
  {
    if |s| == 0 then 0
    else assert IsDigit(s[|s| - 1]); DigitsValue(s[..|s| - 1]) * 10 + (s[|s| - 1] as int - '0' as int)
  }

  /** The index denoted by an array-index property name: a canonical decimal
      numeral below 2^32 - 1. */
  function ArrayIndex(k: string): Option<nat> {
    if |k| > 0 && (forall i :: 0 <= i < |k| ==> IsDigit(k[i])) && (k == "0" || k[0] != '0')
       && DigitsValue(k) < 0xFFFF_FFFF
    then Some(DigitsValue(k))
    else None
  }

  /** `doc[key]` when `doc` is a non-null object or an array, else `undefined`. */
  function Member(doc: Value, key: string): (r: Value)
    ensures !doc.Arr? && !doc.Obj? ==> r == Undefined
    ensures doc.Obj? ==> r == Lookup(doc.entries, key)
  {
    match doc
    case Obj(entries) => Lookup(entries, key)
    case Arr(items) =>
      if key == "length" then Num(|items|)
      else (match ArrayIndex(key)
            case Some(i) => if i < |items| then items[i] else Undefined
            case None => Undefined)
    case _ => Undefined
  }

  /** `getValue`: follows `path` one property at a time and stops with
      `undefined` as soon as a step yields `undefined`; it never fails. An
      empty path reads the property named "undefined", as destructuring an
      empty array does in the source. */
  function GetValue(doc: Value, path: seq<string>): (r: Value)
    ensures |path| > 0 && !doc.Arr? && !doc.Obj? ==> r == Undefined
    ensures |path| == 1 ==> r == Member(doc, path[0])
    decreases |path|
  {
    var key := if |path| == 0 then "undefined" else path[0];
    var value := Member(doc, key);
    if |path| > 1 && value != Undefined then GetValue(value, path[1..]) else value
  }

  /** Looking up a concatenated path is looking up its two halves in turn,
      where a missing intermediate value stays missing. */
  lemma {:induction false} GetValueAppend(doc: Value, p: seq<string>, q: seq<string>)
    requires |p| > 0 && |q| > 0
    ensures GetValue(doc, p + q) ==
            (var mid := GetValue(doc, p); if mid == Undefined then Undefined else GetValue(mid, q))
    decreases |p|
  {
    assert (p + q)[0] == p[0];
    if |p| > 1 {
      assert (p + q)[1..] == p[1..] + q;
      if Member(doc, p[0]) != Undefined {
        GetValueAppend(Member(doc, p[0]), p[1..], q);
      }
    } else {
      assert (p + q)[1..] == q;
    }
  }

  // ---------------------------------------------------------------------
  // Deep equality.

  /** Objects have pairwise distinct keys, at every depth. */
  predicate WellFormed(v: Value) {
    match v
    case Arr(items) => forall i :: 0 <= i < |items| ==> WellFormed(items[i])
    case Obj(entries) =>
      && (forall i, j :: 0 <= i < j < |entries| ==> entries[i].key != entries[j].key)
      && (forall i :: 0 <= i < |entries| ==> WellFormed(entries[i].val))
    case _ => true
  }

  /** `deepEqual`: arrays element-wise; objects by entry count and then, for
      each entry of `a`, the value `b` has under that key (absent reads as
      `undefined`); everything else by `===`. */
  predicate DeepEqual(a: Value, b: Value)
    ensures DeepEqual(a, b) ==> TypeOf(a) == TypeOf(b)
    ensures IsPrimitive(a) ==> (DeepEqual(a, b) <==> a == b)
  {
    if a.Arr? && b.Arr? then
      |a.items| == |b.items| && forall i :: 0 <= i < |a.items| ==> DeepEqual(a.items[i], b.items[i])
    else if a.Obj? && b.Obj? then
      |a.entries| == |b.entries|
      && forall i :: 0 <= i < |a.entries| ==> DeepEqual(a.entries[i].val, Lookup(b.entries, a.entries[i].key))
    else StrictEquals(a, b)
  }

  lemma {:induction false} LookupDistinct(entries: seq<Entry>, i: nat)
    requires i < |entries|
    requires forall p, q :: 0 <= p < q < |entries| ==> entries[p].key != entries[q].key
    ensures Lookup(entries, entries[i].key) == entries[i].val
  {
    if i > 0 {
      assert entries[0].key != entries[i].key;
      LookupDistinct(entries[1..], i - 1);
    }
  }

  lemma {:induction false} DeepEqualReflexive(v: Value)
    requires WellFormed(v)
    ensures DeepEqual(v, v)
  {
    match v
    case Arr(items) =>
      forall i | 0 <= i < |items| ensures DeepEqual(items[i], items[i]) {
        DeepEqualReflexive(items[i]);
      }
    case Obj(entries) =>
      forall i | 0 <= i < |entries|
        ensures DeepEqual(entries[i].val, Lookup(entries, entries[i].key))
      {
        LookupDistinct(entries, i);
        DeepEqualReflexive(entries[i].val);
      }
    case _ =>
  }

  /** `{x: undefined, y: 1}` and `{y: 1, z: 2}`: the witnesses below. */
  const WithUndefined: Value := Obj([Entry("x", Undefined), Entry("y", Num(1))])
  const WithExtra: Value := Obj([Entry("y", Num(1)), Entry("z", Num(2))])

  /** The inherited quirk: an entry holding `undefined` matches a key the other
      object lacks, so `{x: undefined, y: 1}` deep-equals `{y: 1, z: 2}` but not
      the other way round. */
  lemma DeepEqualIsNotSymmetric()
    ensures WellFormed(WithUndefined) && WellFormed(WithExtra)
    ensures DeepEqual(WithUndefined, WithExtra) && !DeepEqual(WithExtra, WithUndefined)
  {
    WitnessesWellFormed();
    DeepEqualForward();
    DeepEqualBackward();
  }

  lemma WitnessesWellFormed()
    ensures WellFormed(WithUndefined) && WellFormed(WithExtra)
  {
    var a, b := WithUndefined.entries, WithExtra.entries;
    assert a[0].key[0] != a[1].key[0] && b[0].key[0] != b[1].key[0];
    assert forall i :: 0 <= i < |a| ==> WellFormed(a[i].val);
    assert forall i :: 0 <= i < |b| ==> WellFormed(b[i].val);
  }

  lemma DeepEqualForward()
    ensures DeepEqual(WithUndefined, WithExtra)
  {
    var a, b := WithUndefined.entries, WithExtra.entries;
    assert Lookup(b, "x") == Undefined;
    assert Lookup(b, "y") == Num(1);
  }

  lemma DeepEqualBackward()
    ensures !DeepEqual(WithExtra, WithUndefined)
  {
    var a, b := WithUndefined.entries, WithExtra.entries;
    assert Lookup(a, "z") == Undefined;
    assert !DeepEqual(b[1].val, Lookup(a, b[1].key));
  }

  // ---------------------------------------------------------------------
  // The ORDER BY comparator.

  /** `comparator`: 0 on identical operands; two objects always tie; other
      operands of one kind compare with `<`; operands of different kinds
      compare by their position in `TYPE_ORDERS`. */
  function Comparator(a: Value, b: Value): (r: int)
    ensures r == -1 || r == 0 || r == 1
    ensures r == 0 <==> StrictEquals(a, b) || (a.Obj? && b.Obj?)
    ensures TypeOf(a) != TypeOf(b) ==> (r < 0 <==> Rank(TypeOf(a)) < Rank(TypeOf(b)))
  {
    if StrictEquals(a, b) then 0
    else if TypeOf(a) == TypeOf(b) then
      (if a.Obj? then 0 else if JsLess(a, b) then -1 else 1)
    else if Rank(TypeOf(a)) < Rank(TypeOf(b)) then -1 else 1
  }

  /** A value the comparator orders consistently: anything but an array. */
  predicate Orderable(v: Value) { !v.Arr? }

  /** Two distinct array references never compare as identical and `x < x` is
      false, so the comparator puts an array after an equal copy of itself,
      and after it again in the other direction: arrays are not ordered
      consistently. */
  lemma ArrayComparatorInconsistent(a: Value)
    requires a.Arr?
    ensures Comparator(a, a) == 1
  {
    StrLessIrreflexive(JoinString(a));
  }

  lemma ComparatorReflexive(a: Value)
    requires Orderable(a)
    ensures Comparator(a, a) == 0
  {
  }

  lemma ComparatorAntisymmetric(a: Value, b: Value)
    requires Orderable(a) && Orderable(b)
    ensures Comparator(a, b) == -Comparator(b, a)
  {
    if a.Str? && b.Str? {
      StrLessAsymmetric(a.s, b.s);
      StrLessTotal(a.s, b.s);
    }
  }

  lemma ComparatorTransitive(a: Value, b: Value, c: Value)
    requires Orderable(a) && Orderable(b) && Orderable(c)
    requires Comparator(a, b) <= 0 && Comparator(b, c) <= 0
    ensures Comparator(a, c) <= 0
    ensures Comparator(a, b) < 0 || Comparator(b, c) < 0 ==> Comparator(a, c) < 0
  {
    if a.Str? && b.Str? && c.Str? {
      StrLessTotal(a.s, b.s);
      StrLessTotal(b.s, c.s);
      StrLessTotal(a.s, c.s);
      StrLessAsymmetric(a.s, c.s);
      StrLessIrreflexive(a.s);
      if StrLess(a.s, b.s) && StrLess(b.s, c.s) {
        StrLessTransitive(a.s, b.s, c.s);
      }
    }
  }

  // ---------------------------------------------------------------------
  // Output sanitisation.

  /** No `undefined` anywhere: not the value, no array element, no property. */
  predicate Clean(v: Value) {
    match v
    case Undefined => false
    case Arr(items) => forall i :: 0 <= i < |items| ==> Clean(items[i])
    case Obj(entries) => forall i :: 0 <= i < |entries| ==> Clean(entries[i].val)
    case _ => true
  }

  /** `stripUndefined`: drops `undefined` array elements (the array closes up)
      and `undefined` properties, at every depth; `null` and primitives stay. */
  function StripUndefined(v: Value): (r: Value)
    ensures TypeOf(r) == TypeOf(v)
    ensures IsPrimitive(v) ==> r == v
  {
    match v
    case Arr(items) => Arr(StripItems(items))
    case Obj(entries) => Obj(StripEntries(entries))
    case _ => v
  }

  function StripItems(items: seq<Value>): (r: seq<Value>)
    ensures |r| <= |items|
  {
    if |items| == 0 then []
    else (if items[0] == Undefined then [] else [StripUndefined(items[0])]) + StripItems(items[1..])
  }

  function StripEntries(entries: seq<Entry>): (r: seq<Entry>)
    ensures |r| <= |entries|
  {
    if |entries| == 0 then []
    else
      (if entries[0].val == Undefined then [] else [Entry(entries[0].key, StripUndefined(entries[0].val))])
      + StripEntries(entries[1..])
  }

  /** No `undefined` survives stripping, at any depth. */
  lemma {:induction false} StripIsClean(v: Value)
    requires v != Undefined
    ensures Clean(StripUndefined(v))
  {
    match v
    case Arr(items) => StripItemsClean(items);
    case Obj(entries) => StripEntriesClean(entries);
    case _ =>
  }

  lemma {:induction false} StripItemsClean(items: seq<Value>)
    ensures forall i :: 0 <= i < |StripItems(items)| ==> Clean(StripItems(items)[i])
  {
    if |items| > 0 {
      StripItemsClean(items[1..]);
      var head := if items[0] == Undefined then [] else [StripUndefined(items[0])];
      if items[0] != Undefined {
        StripIsClean(items[0]);
      }
      assert StripItems(items) == head + StripItems(items[1..]);
    }
  }

  lemma {:induction false} StripEntriesClean(entries: seq<Entry>)
    ensures forall i :: 0 <= i < |StripEntries(entries)| ==> Clean(StripEntries(entries)[i].val)
  {
    if |entries| > 0 {
      StripEntriesClean(entries[1..]);
      var x := entries[0];
      var head := if x.val == Undefined then [] else [Entry(x.key, StripUndefined(x.val))];
      if x.val != Undefined {
        StripIsClean(x.val);
      }
      assert StripEntries(entries) == head + StripEntries(entries[1..]);
    }
  }

  /** Stripping an array is a homomorphism for concatenation: surviving
      elements keep their relative order. */
  lemma {:induction false} StripItemsAppend(a: seq<Value>, b: seq<Value>)
    ensures StripItems(a + b) == StripItems(a) + StripItems(b)
  {
    if |a| == 0 {
      assert a + b == b;
    } else {
      var head := if a[0] == Undefined then [] else [StripUndefined(a[0])];
      assert (a + b)[0] == a[0];
      assert (a + b)[1..] == a[1..] + b;
      assert StripItems(a + b) == head + StripItems(a[1..] + b);
      StripItemsAppend(a[1..], b);
    }
  }

  lemma {:induction false} StripEntriesAppend(a: seq<Entry>, b: seq<Entry>)
    ensures StripEntries(a + b) == StripEntries(a) + StripEntries(b)
  {
    if |a| == 0 {
      assert a + b == b;
    } else {
      assert (a + b)[0] == a[0];
      assert (a + b)[1..] == a[1..] + b;
      StripEntriesAppend(a[1..], b);
    }
  }

  lemma LookupCons(x: Entry, rest: seq<Entry>, k: string)
    ensures Lookup([x] + rest, k) == if x.key == k then x.val else Lookup(rest, k)
  {
    assert ([x] + rest)[1..] == rest;
  }

  /** On an object with distinct keys, stripping works property by property:
      each key reads as its stripped value, and a key whose value was
      `undefined` is gone (it reads as `undefined` again). */
  lemma {:induction false} LookupStripEntries(entries: seq<Entry>, k: string)
    requires forall p, q :: 0 <= p < q < |entries| ==> entries[p].key != entries[q].key
    ensures Lookup(StripEntries(entries), k) == StripUndefined(Lookup(entries, k))
  {
    if |entries| > 0 {
      var x, rest := entries[0], entries[1..];
      var stripped := StripEntries(rest);
      LookupStripEntries(rest, k);
      assert Lookup(entries, k) == if x.key == k then x.val else Lookup(rest, k);
      if x.val == Undefined {
        assert StripEntries(entries) == [] + stripped;
        assert [] + stripped == stripped;
        if x.key == k {
          LookupAbsent(rest, k, entries);
        }
      } else {
        assert StripEntries(entries) == [Entry(x.key, StripUndefined(x.val))] + stripped;
        LookupCons(Entry(x.key, StripUndefined(x.val)), stripped, k);
      }
    }
  }

  /** With distinct keys, the first key is not found again further on. */
  lemma LookupAbsent(rest: seq<Entry>, k: string, entries: seq<Entry>)
    requires |entries| > 0 && rest == entries[1..] && entries[0].key == k
    requires forall p, q :: 0 <= p < q < |entries| ==> entries[p].key != entries[q].key
    ensures Lookup(rest, k) == Undefined
  {
    forall i | 0 <= i < |rest| ensures rest[i].key != k {
      assert entries[0].key != entries[i + 1].key;
    }
  }

  /** A value that is already clean is left exactly as it is; in particular
      stripping is idempotent (see `StripIdempotent`). */
  lemma {:induction false} StripCleanIsIdentity(v: Value)
    requires Clean(v)
    ensures StripUndefined(v) == v
  {
    match v
    case Arr(items) => StripItemsCleanIsIdentity(items);
    case Obj(entries) => StripEntriesCleanIsIdentity(entries);
    case _ =>
  }

  lemma {:induction false} StripItemsCleanIsIdentity(items: seq<Value>)
    requires forall i :: 0 <= i < |items| ==> Clean(items[i])
    ensures StripItems(items) == items
  {
    if |items| > 0 {
      StripCleanIsIdentity(items[0]);
      StripItemsCleanIsIdentity(items[1..]);
      assert items == [items[0]] + items[1..];
    }
  }

  lemma {:induction false} StripEntriesCleanIsIdentity(entries: seq<Entry>)
    requires forall i :: 0 <= i < |entries| ==> Clean(entries[i].val)
    ensures StripEntries(entries) == entries
  {
    if |entries| > 0 {
      StripCleanIsIdentity(entries[0].val);
      StripEntriesCleanIsIdentity(entries[1..]);
      assert entries == [entries[0]] + entries[1..];
    }
  }

  lemma StripIdempotent(v: Value)
    ensures StripUndefined(StripUndefined(v)) == StripUndefined(v)
  {
    if v != Undefined {
      StripIsClean(v);
      StripCleanIsIdentity(StripUndefined(v));
    }
  }
}

=== FILE: wrappers.dfy ===
/** Failure-compatible wrappers used throughout the model: `Option` for the
    JavaScript values that may be `undefined` at the API boundary, and
    `Result` for operations that throw. */
module Wrappers {

  datatype Option<+T> = None | Some(value: T) {
    predicate IsFailure() { None? }

    function PropagateFailure<U>(): Option<U>
      requires None?
    {
      None
    }

    function Extract(): T
      requires Some?
    {
      value
    }
  }

  /** The exceptions the core raises, one constructor per `throw` site. */
  datatype Error =
    | UnexpectedOperator(operator: string)   // TypeError from compare/calculate/calculateUnary
    | NonIntegerResult                       // a double result the integer model cannot hold
    | MissingCompositeIndex                  // sort: no composite index serves the ORDER BY
    | RidRequiredForContinuation             // paginate: resume scan met a row without `_rid`
    | RidRequiredForMaxItemCount             // paginate: boundary row without `_rid`

  datatype Result<+R> = Success(value: R) | Failure(error: Error) {
    predicate IsFailure() { Failure? }

    function PropagateFailure<U>(): Result<U>
      requires Failure?
    {
      Failure(error)
    }

    function Extract(): R
      requires Success?
    {
      value
    }
  }
}
